=== FILE: README.md ===
# terrain_generation mesh generators in Dafny

This project models the mesh-building core of `main.cpp`:

- **`generateCube`** builds an axis-aligned box from a fixed table of 8 corners and 12 triangles. The triangle table is written 1-based and shifted down by one.
- **`translateMesh`** adds one offset vector to every vertex row.
- **`generateSteps`** lays out a "stepped terrain".
  - It covers a grid of cells. Each cell owns four vertex rows and two face rows.
  - All four corners of a cell sit at one elevation, drawn once per cell.

A mesh is a sequence of `Vec3` vertex rows and a sequence of `Tri` face rows (module `Meshes`). Positions are exact reals. Functions return new meshes where the source updates Eigen matrices in place.

The steps generator is modelled at three levels:

- `Steps`: the layout the code evidently intends, and facts about it.
  - It is a pure function of the cell counts `nx`, `ny`, the step size and the per-cell draws.
  - Lemmas about the flat row offset `i * stride + j` cover any stride.
- `StepsWriter`: the nested loops as written. They write into buffers of optional rows.
  - A row never written stays `None`.
  - A write past the end of a buffer is a `Failure` naming the cell.
- `StepGrid`: how the real-valued `width`, `height` and `stepSize` become loop counts and buffer sizes.
  - It holds the whole as-written generator and a corrected one, plus concrete calls.

The generator is meant to cover the plane with `floor(width/stepSize) x floor(height/stepSize)` whole cells, and to give an empty mesh when the step is longer than an extent. The code does not do that: its loops (main.cpp:72 and 74) run while the index is below the ratio, which is a ceiling. The model follows the code. `StepGrid.LoopTrips` models the ceiling, and the floor-based behaviour is the corrected generator `StepGrid.StepsForPlane`.

The two triangles of a step cell, (4c, 4c+1, 4c+2) and (4c+1, 4c+2, 4c+3), walk their shared diagonal in the same direction. So their right-hand-rule normals point opposite ways, +z and -z (`Steps.StepsCellNormals`). The model records this as a fact about the mesh. How the viewer lights a triangle seen from its back is not part of this model, so it is not claimed as a finding.

## Model

| member | source | states |
|---|---|---|
| Cube.GenerateCube | main.cpp:11-41 | 8 vertices and 12 faces, and every shifted face index is a vertex row (0..7). Vertex k is the box corner whose far x, y and z sides are bits 2, 1 and 0 of k. Every coordinate is 0 or the matching extent. |
| Cube.CubeCoversBox | main.cpp:18-26 | Every corner of the box [0,length]x[0,width]x[0,height] is a vertex, at row 4x + 2y + z. |
| Cube.CubeVerticesDistinct | main.cpp:18-26 | With non-zero extents the eight vertices are pairwise different points. |
| Cube.CubeClosedOriented | main.cpp:27-39 | The 36 directed edges of the 12 triangles are pairwise different, and each one's reverse is also an edge. The box surface is closed and consistently oriented. |
| Meshes.ClosedOrientedEdgeCounts | main.cpp:27-39 | In such a surface (the cube's faces, by the row above), each directed edge occurs exactly once and so does its reverse. |
| Cube.CubeNormalsOutward | main.cpp:18-39 | With positive extents, every triangle's normal (b-a)x(c-a) points away from the box centre. |
| Transform.Translate | main.cpp:43-46 | The face rows and the vertex count are unchanged. Every vertex row moves by exactly the offset. |
| Transform.TranslateByOrigin | main.cpp:43-46 | Translating by (0,0,0) is the identity. |
| Transform.TranslateTwice | main.cpp:43-46 | Two translations equal one translation by the sum of the offsets. |
| Transform.TranslateUndo | main.cpp:43-46 | Translating by the negated offset restores the mesh. |
| Transform.TranslateKeepsTopology | main.cpp:43-46 | Well-formedness and closed orientation hold after a translation exactly when they held before. |
| Transform.TranslateKeepsNormals | main.cpp:43-46 | Every face normal is unchanged by a translation. |
| Steps.GenerateSteps | main.cpp:69-98 | An nx-by-ny grid gives 4·nx·ny vertices and 2·nx·ny faces, and every face index is a vertex row. The mesh is empty exactly when a count is 0. |
| Steps.StepsCellVertices | main.cpp:76-91 | Cell (i, j), with c = i·ny + j, owns rows 4c..4c+3. They are at (i·s, j·s), ((i+1)·s, j·s), (i·s, (j+1)·s) and ((i+1)·s, (j+1)·s), all at z = the cell's draw. |
| Steps.StepsCellFaces | main.cpp:93-98 | Cell c's triangles are (4c, 4c+1, 4c+2) and (4c+1, 4c+2, 4c+3). Both walk the diagonal 4c+1 -> 4c+2. |
| Steps.StepsFacesStayInCell | main.cpp:93-98 | Every face references only the four vertex rows of its own cell, so cells share no vertex. |
| Steps.StepsHeightsInRange | main.cpp:66-91 | When every draw lies in [0.1, maxHeight), every vertex elevation does too. |
| Steps.StepsWithinPlane | main.cpp:77-91 | For a non-negative step, every vertex lies over [0, nx·s] x [0, ny·s]. |
| Steps.StepsCellNormals | main.cpp:93-98 | The first triangle of each cell has normal (0, 0, s²) and the second (0, 0, -s²). |
| Steps.RowLengthStrideIsSound | main.cpp:77-98 | With stride ny, every vertex and face row written lies below 4·nx·ny and 2·nx·ny, and different cells write different rows. |
| Steps.LayoutSoundIff | main.cpp:69-98 | For nx >= 2, ny >= 1 and any integer stride, writes stay in bounds and cells stay disjoint exactly when the stride equals ny. With a longer stride the last cell's first vertex row lies at or past 4·nx·ny. With a shorter non-negative one the grid cells (0, stride) and (1, 0) write the same vertex row. With a negative one cell (1, 0) writes below row 0. |
| Steps.ShippedCallLayoutSound | main.cpp:130-132 | The program's call has 20 cells per row and stride 20, so its layout is sound. |
| StepsWriter.WriteSteps | main.cpp:72-100 | The nested loops fail exactly when the last cell, which has the largest offset, does not fit; the failing cell is in the grid and does not fit. Rows past the reachable cell slots stay unwritten. For any stride, every cell that no later cell overwrites holds its four corners, at its own draw, and its two triangles in the rows at offset c = i·stride + j. With stride ny, or a single row of cells, a successful run had room for all 4·nx·ny vertex and 2·nx·ny face rows, every such row is the generated mesh's, and exact buffers come out completely filled. A short stride leaves the last row unwritten; a long one fails. |
| StepsWriter.WriteRows | main.cpp:72-100 | The outer loop fails exactly when the last cell does not fit. On success the buffers keep their sizes, nothing is written past the reachable slots, and every cell that is last in its slot is held in its rows. |
| StepsWriter.WriteRow | main.cpp:74-99 | One pass of the inner loop either fails at a cell of row i that does not fit, or writes every cell of row i. It keeps the written rows below the slots of rows 0..i. Every cell written so far that no later cell of rows 0..i overwrote is held in its rows. |
| StepsWriter.OwnSlots | main.cpp:77-98 | With stride ny, or a single row of cells, each cell's offset is its row-major index i·ny + j, and no later cell shares it. |
| StepsWriter.HeldIsGenerated | main.cpp:77-98 | In that case, buffers holding every last writer hold exactly the generated mesh's rows; with exact sizes they are that mesh, completely filled. |
| StepsWriter.LoopDone | main.cpp:72-100 | After all rows the loop invariants give the results stated for WriteSteps. |
| StepGrid.LoopTrips | main.cpp:72-74 | The pass count of `k < extent/stepSize` is the least natural number not below the ratio. |
| StepGrid.LoopTripsCount | main.cpp:72-74 | Index k gets a pass exactly when k is below the ratio. |
| StepGrid.AllocatedRows | main.cpp:69-70 | The allocated row count is the floor of perCell·(width/stepSize)·(height/stepSize). |
| StepGrid.AllocationCoversLoopsIff | main.cpp:69-74 | The allocation has room for as many rows as the loops' passes write exactly when both ratios are whole, or one gives no pass. |
| StepGrid.RowStrideAllocation | main.cpp:69-77 | With stride ny, the last cell fits the truncated buffers exactly when the grid is whole, and the buffers are then exactly 4·nx·ny and 2·nx·ny rows. |
| StepGrid.GenerateStepsAsWritten | main.cpp:59-102 | The whole function as written fails exactly when its last cell does not fit. For any whole width, every cell that no later cell overwrites is held in its rows at offset i·width + j. With width equal to the cells-per-row count, or a single row of cells, a successful run holds the generated mesh's rows. With width equal to the cells-per-row count, it fails exactly when the grid is not whole, and otherwise yields the generated mesh. |
| StepGrid.ShippedCall | main.cpp:130-132 | generateSteps(20, 20, 1, ·) fills its buffers with exactly the 20-by-20 steps mesh. |
| StepGrid.ShortStrideExample | main.cpp:77-98 | generateSteps(2, 2, 0.5, ·) succeeds but leaves vertex rows 40..63 unwritten. Cells (0, 2) and (1, 0) share rows 8..11, and row 8 holds the later cell's corner at draw 4, not the earlier cell's at draw 2. The corrected mesh has 64 vertex rows. |
| StepGrid.SingleRowExample | main.cpp:72-98 | generateSteps(1, 3, 1, ·) has one row of cells, so the stride never matters: it fills its 12 and 6 rows with exactly the 1-by-3 steps mesh, and row 0 is (0, 0, draw 0). |
| StepGrid.LongStrideExample | main.cpp:77-98 | generateSteps(4, 2, 1, ·) fails: it allocates 32 vertex rows, and the first vertex row of its last cell (3, 1), at stride 4, is at or past row 32. |
| StepGrid.FractionalHeightExample | main.cpp:69-74 | generateSteps(2, 1.5, 1, ·) fails: its loops make 2 x 2 passes, 16 vertex rows, and it allocates 12. |
| StepGrid.OversizedStepExample | main.cpp:69-74 | generateSteps(1, 0.5, 2, ·) fails: each loop makes one pass, and both buffers get 0 rows. The corrected generator gives the empty mesh. |
| StepGrid.StepsForPlane | main.cpp:59-102 | The corrected generator: floor(width/s)·floor(height/s) cells, with 4 vertices and 2 faces each, and a well-formed mesh. |
| StepGrid.StepsForPlaneEmptyIff | main.cpp:59-102 | The corrected mesh is empty exactly when the step is longer than the width or the height. |
| StepGrid.StepsForPlaneInside | main.cpp:77-91 | Every corrected vertex lies over the plane rectangle [0, width] x [0, height]. |
| StepGrid.GenerateStepsCorrected | main.cpp:59-102 | The corrected loop (floor counts for loops and allocation, stride = cells per row) never fails, and fills exactly the corrected mesh. |

## Left out

- `combineMeshes` (main.cpp:48-57) is a call into libigl/CGAL `mesh_boolean`, a foreign geometry kernel whose algorithm is not part of this model.
- `main` and the viewer (main.cpp:104-138) are rendering and UI. The commented-out inline cube repeats `generateCube`'s tables.
- The random engine and distribution (main.cpp:65-66) become a caller-supplied sequence `heights`; cell c in loop order takes `heights[c]`. The range [0.1, maxHeight) is a precondition of `Steps.StepsHeightsInRange` only.
- Floating point: all coordinates, ratios and products are exact reals. The rounding of `float`/`double` arithmetic is not modelled, nor is the float-to-integer conversion of the row offset.
- StepGrid.GenerateStepsAsWritten: `width` is a whole number. A fractional width makes the row offset `4*(i*width + j)` fractional before it is truncated to an index, and that is not modelled.
- StepGrid.GenerateStepsAsWritten: negative extents and a non-positive `stepSize` are not modelled; `width` is a `nat`, and `height >= 0` and `stepSize > 0` are required. What the source does there depends on the sign of the allocation product `4*width/stepSize*height/stepSize`:
  - The step occurs twice in that product, so its sign is the sign of `width*height`.
  - Both extents negative with a positive step, or both positive with a negative step: both ratios are negative, so the loops make no pass. Each buffer's product is positive and is truncated: a buffer whose product is at least 1 gets rows, which are returned unwritten, and one whose product is in (0, 1) gets 0 rows.
  - Both extents and the step negative: both ratios are positive and the loops run, but the row stride `width` is negative. Cell (i, 0)'s first vertex row is the float `4*i*width` truncated toward zero. If the outer loop makes a second pass and the width is at or below -0.25, cell (1, 0) writes below row 0, which is out of range. For a width in (-0.25, 0), the rows of cell (1, 0) truncate to rows 0..2, which overlap the rows of cell (0, 0). The first write below row 0 then comes from the first cell (i, 0) with `4*i*width` at or below -1, if the outer loop gets that far. For example, generateSteps(-0.2, -0.2, -0.1, ·) makes 2 x 2 passes into 16 rows, and no write leaves them.
  - Exactly one extent negative: one of the two ratios is negative whatever the step's sign, so no cell is written. With a negative step the outer loop may still make passes, but the inner loop makes none. A product in (-1, 0] truncates to 0 rows and gives an empty mesh. A product at or below -1 converts a negative float to `size_t`, which is undefined behaviour.
  - A zero step divides by zero, and converting the infinite or NaN product to `size_t` is undefined behaviour.
- StepGrid.StepsForPlane: requires a positive `stepSize` and non-negative extents. The corrected generator is stated only where the whole-cell count floor(extent / stepSize) has a meaning.
- StepGrid.StepsForPlaneEmptyIff: same domain as `StepGrid.StepsForPlane` (positive step, non-negative extents).
- StepGrid.StepsForPlaneInside: same domain as `StepGrid.StepsForPlane` (positive step, non-negative extents).
- StepGrid.GenerateStepsCorrected: same domain as `StepGrid.StepsForPlane` (positive step, non-negative extents).
- StepsWriter.WriteSteps: a run that writes out of range returns only the failing cell, not the partly written buffers. Eigen asserts on such a write, and without assertions it is undefined behaviour.
- StepsWriter.WriteSteps: with a stride longer than ny and buffers larger than the grid needs, the rows in the gaps between rows of cells are not stated to stay unwritten; only rows past the last reachable slot are. The as-written generator never allocates such buffers.
- Eigen matrices and `rowwise()` broadcasting are modelled as sequences of rows. `translateMesh`'s in-place update returns a new mesh.

## Findings

| source | as written | input that shows it | evidently intended | confidence | as-written member | corrected member |
|---|---|---|---|---|---|---|
| main.cpp:77-98 | The flat cell offset is `i*width + j`, so the raw `width` argument is the row stride, not the number of cells per row. | generateSteps(2, 2, 0.5, ·): 4x4 cells with stride 2. Cells (0, 2) and (1, 0) write the same rows, the later cell's corners remain there, and vertex rows 40..63 are never written. generateSteps(4, 2, 1, ·): the last cell's rows lie past the 32 allocated. | Offset `i*ny + j`, with ny the number of cells per row. | not executed; high — the one call in the program has width equal to the cells-per-row count, which hides it | StepGrid.ShortStrideExample | StepGrid.GenerateStepsCorrected |
| main.cpp:69-74 | The buffers hold `floor(4*width/stepSize*height/stepSize)` rows, but the loops make `ceil(width/stepSize)` x `ceil(height/stepSize)` passes. | generateSteps(2, 1.5, 1, ·): 16 vertex rows written into 12 allocated. generateSteps(1, 0.5, 2, ·): one pass into 0 rows. | The same whole-cell counts `floor(width/stepSize)` and `floor(height/stepSize)` for the loops and the allocation. | not executed; high | StepGrid.FractionalHeightExample | StepGrid.GenerateStepsCorrected |

=== FILE: cube.dfy ===
/**
  `generateCube`: the axis-aligned box [0,length] x [0,width] x [0,height]
  as a fixed table of 8 corners and 12 triangles.
 */
module Cube {
  import opened Meshes

  /** The box corner that lies on the far x, y and z sides as the flags say. */
  function BoxCorner(length: real, width: real, height: real, farX: bool, farY: bool, farZ: bool): Vec3 {
    Vec3(if farX then length else 0.0, if farY then width else 0.0, if farZ then height else 0.0)
  }

  /**
    The corner-numbering convention of the vertex table: bits 2, 1 and 0 of
    the row number select the far x, y and z side respectively.
   */
  function BitCorner(length: real, width: real, height: real, k: int): Vec3 {
    BoxCorner(length, width, height, k / 4 % 2 == 1, k / 2 % 2 == 1, k % 2 == 1)
  }

  /** The face table as written in the source, with 1-based vertex numbers. */
  const OneBasedFaces: seq<Tri> := [
    Tri(1, 7, 5), Tri(1, 3, 7), Tri(1, 4, 3), Tri(1, 2, 4),
    Tri(3, 8, 7), Tri(3, 4, 8), Tri(5, 7, 8), Tri(5, 8, 6),
    Tri(1, 5, 6), Tri(1, 6, 2), Tri(2, 6, 8), Tri(2, 8, 4)
  ]

  /** The element-wise `- 1` that turns 1-based vertex numbers into row indices. */
  function ShiftDown(faces: seq<Tri>): (shifted: seq<Tri>)
    ensures |shifted| == |faces|
  {
    seq(|faces|, f requires 0 <= f < |faces| => Tri(faces[f].a - 1, faces[f].b - 1, faces[f].c - 1))
  }

  /** The vertex table: corner rows in the order the source lists them. */
  function Corners(length: real, width: real, height: real): seq<Vec3> {
    [ Vec3(0.0, 0.0, 0.0),
      Vec3(0.0, 0.0, height),
      Vec3(0.0, width, 0.0),
      Vec3(0.0, width, height),
      Vec3(length, 0.0, 0.0),
      Vec3(length, 0.0, height),
      Vec3(length, width, 0.0),
      Vec3(length, width, height) ]
  }

  function GenerateCube(length: real, width: real, height: real): (m: Mesh)
    ensures |m.vertices| == 8 && |m.faces| == 12
    ensures WellFormed(m)
    ensures forall k | 0 <= k < 8 :: m.vertices[k] == BitCorner(length, width, height, k)
    ensures forall v | v in m.vertices ::
              (v.x == 0.0 || v.x == length) && (v.y == 0.0 || v.y == width) && (v.z == 0.0 || v.z == height)
  {
    Mesh(Corners(length, width, height), ShiftDown(OneBasedFaces))
  }

  /** Every corner of the box is one of the cube's vertices, at row 4x + 2y + z. */
  lemma CubeCoversBox(length: real, width: real, height: real, farX: bool, farY: bool, farZ: bool)
    ensures var k := (if farX then 4 else 0) + (if farY then 2 else 0) + (if farZ then 1 else 0);
            GenerateCube(length, width, height).vertices[k] == BoxCorner(length, width, height, farX, farY, farZ)
  {
    var k := (if farX then 4 else 0) + (if farY then 2 else 0) + (if farZ then 1 else 0);
    assert GenerateCube(length, width, height).vertices[k] == BitCorner(length, width, height, k);
  }

  /** With non-zero extents the eight corners are eight different points. */
  lemma CubeVerticesDistinct(length: real, width: real, height: real)
    requires length != 0.0 && width != 0.0 && height != 0.0
    ensures NoDuplicates(GenerateCube(length, width, height).vertices)
  {
  }

  /**
    Proof tables. `CubeFaces` is the face table after the shift, spelled out
    as 0-based rows (`ShiftedFaceRows` proves it equal to the generated
    faces), and `CubeEdges` lists the edges those faces walk (`CubeEdgeFacts`
    proves each row is its face's edge). Spelled out, they let the verifier
    decide the closed-surface and orientation facts by plain case analysis.
   */
  const CubeFaces: seq<Tri> := [
    Tri(0, 6, 4), Tri(0, 2, 6), Tri(0, 3, 2), Tri(0, 1, 3),
    Tri(2, 7, 6), Tri(2, 3, 7), Tri(4, 6, 7), Tri(4, 7, 5),
    Tri(0, 4, 5), Tri(0, 5, 1), Tri(1, 5, 7), Tri(1, 7, 3)
  ]

  /** The 36 directed edges of `CubeFaces` in winding order, three per face (a proof table, see above). */
  const CubeEdges: seq<Edge> := [
    Edge(0, 6), Edge(6, 4), Edge(4, 0), Edge(0, 2), Edge(2, 6), Edge(6, 0),
    Edge(0, 3), Edge(3, 2), Edge(2, 0), Edge(0, 1), Edge(1, 3), Edge(3, 0),
    Edge(2, 7), Edge(7, 6), Edge(6, 2), Edge(2, 3), Edge(3, 7), Edge(7, 2),
    Edge(4, 6), Edge(6, 7), Edge(7, 4), Edge(4, 7), Edge(7, 5), Edge(5, 4),
    Edge(0, 4), Edge(4, 5), Edge(5, 0), Edge(0, 5), Edge(5, 1), Edge(1, 0),
    Edge(1, 5), Edge(5, 7), Edge(7, 1), Edge(1, 7), Edge(7, 3), Edge(3, 1)
  ]

  /** The row of `CubeEdges` that walks `e`, or -1 when no face walks it. */
  function CubeEdgeRow(e: Edge): int {
    match e
    case Edge(0, 6) => 0
    case Edge(6, 4) => 1
    case Edge(4, 0) => 2
    case Edge(0, 2) => 3
    case Edge(2, 6) => 4
    case Edge(6, 0) => 5
    case Edge(0, 3) => 6
    case Edge(3, 2) => 7
    case Edge(2, 0) => 8
    case Edge(0, 1) => 9
    case Edge(1, 3) => 10
    case Edge(3, 0) => 11
    case Edge(2, 7) => 12
    case Edge(7, 6) => 13
    case Edge(6, 2) => 14
    case Edge(2, 3) => 15
    case Edge(3, 7) => 16
    case Edge(7, 2) => 17
    case Edge(4, 6) => 18
    case Edge(6, 7) => 19
    case Edge(7, 4) => 20
    case Edge(4, 7) => 21
    case Edge(7, 5) => 22
    case Edge(5, 4) => 23
    case Edge(0, 4) => 24
    case Edge(4, 5) => 25
    case Edge(5, 0) => 26
    case Edge(0, 5) => 27
    case Edge(5, 1) => 28
    case Edge(1, 0) => 29
    case Edge(1, 5) => 30
    case Edge(5, 7) => 31
    case Edge(7, 1) => 32
    case Edge(1, 7) => 33
    case Edge(7, 3) => 34
    case Edge(3, 1) => 35
    case _ => -1
  }

  /** Six consecutive row numbers spelled out, for case analysis over the fixed tables. */
  lemma Among6(n: int, lo: int)
    requires lo <= n < lo + 6
    ensures n == lo || n == lo + 1 || n == lo + 2 || n == lo + 3 || n == lo + 4 || n == lo + 5
  {
  }

  lemma Among4(n: int, lo: int)
    requires lo <= n < lo + 4
    ensures n == lo || n == lo + 1 || n == lo + 2 || n == lo + 3
  {
  }

  lemma ShiftedFaceRows(length: real, width: real, height: real)
    ensures GenerateCube(length, width, height).faces == CubeFaces
  {
    var faces := GenerateCube(length, width, height).faces;
    forall f | 0 <= f < 12 ensures faces[f] == CubeFaces[f] {
      if f < 6 { Among6(f, 0); } else { Among6(f, 6); }
    }
  }

  // CubeEdgeFacts for rows 0..11, 12..23 and 24..35: one statement, split by row range to keep each proof small.
  lemma CubeEdgesFirstThird(n: int)
    requires 0 <= n < 12
    ensures CubeEdges[n] == EdgeOf(CubeFaces[n / 3], n % 3)
    ensures CubeEdgeRow(CubeEdges[n]) == n
    ensures var r := CubeEdgeRow(Reverse(CubeEdges[n]));
            0 <= r < |CubeEdges| && CubeEdges[r] == Reverse(CubeEdges[n])
  {
    if n < 6 { Among6(n, 0); } else { Among6(n, 6); }
  }

  lemma CubeEdgesSecondThird(n: int)
    requires 12 <= n < 24
    ensures CubeEdges[n] == EdgeOf(CubeFaces[n / 3], n % 3)
    ensures CubeEdgeRow(CubeEdges[n]) == n
    ensures var r := CubeEdgeRow(Reverse(CubeEdges[n]));
            0 <= r < |CubeEdges| && CubeEdges[r] == Reverse(CubeEdges[n])
  {
    if n < 18 { Among6(n, 12); } else { Among6(n, 18); }
  }

  lemma CubeEdgesLastThird(n: int)
    requires 24 <= n < 36
    ensures CubeEdges[n] == EdgeOf(CubeFaces[n / 3], n % 3)
    ensures CubeEdgeRow(CubeEdges[n]) == n
    ensures var r := CubeEdgeRow(Reverse(CubeEdges[n]));
            0 <= r < |CubeEdges| && CubeEdges[r] == Reverse(CubeEdges[n])
  {
    if n < 30 { Among6(n, 24); } else { Among6(n, 30); }
  }

  /**
    Row `n` of `CubeEdges` is edge `n % 3` of face `n / 3`; `CubeEdgeRow`
    finds it back at row `n`, and finds its reverse at some row too.
   */
  lemma CubeEdgeFacts(n: int)
    requires 0 <= n < 36
    ensures CubeEdges[n] == EdgeOf(CubeFaces[n / 3], n % 3)
    ensures CubeEdgeRow(CubeEdges[n]) == n
    ensures var r := CubeEdgeRow(Reverse(CubeEdges[n]));
            0 <= r < |CubeEdges| && CubeEdges[r] == Reverse(CubeEdges[n])
  {
    if n < 12 {
      CubeEdgesFirstThird(n);
    } else if n < 24 {
      CubeEdgesSecondThird(n);
    } else {
      CubeEdgesLastThird(n);
    }
  }

  /**
    The 36 directed edges of the cube's faces are pairwise different and each
    is walked backwards by another face: the surface is closed (18 edges, each
    bordering two faces) and consistently oriented.
   */
  lemma CubeClosedOriented(length: real, width: real, height: real)
    ensures ClosedOriented(GenerateCube(length, width, height).faces)
  {
    ShiftedFaceRows(length, width, height);
    var edges := DirectedEdges(CubeFaces);
    forall n | 0 <= n < 36 ensures edges[n] == CubeEdges[n] {
      CubeEdgeFacts(n);
    }
    assert edges == CubeEdges;
    forall p, q | 0 <= p < q < |edges| ensures edges[p] != edges[q] {
      CubeEdgeFacts(p);
      CubeEdgeFacts(q);
    }
    forall p | 0 <= p < |edges| ensures Reverse(edges[p]) in edges {
      CubeEdgeFacts(p);
    }
  }

  /** The centre of the box, an interior point when all extents are positive. */
  function Centre(length: real, width: real, height: real): Vec3 {
    Vec3(length / 2.0, width / 2.0, height / 2.0)
  }

  /** Whether the normal of face `f` of a box mesh points away from the box centre. */
  predicate FacesOutward(m: Mesh, f: int, centre: Vec3)
    requires WellFormed(m) && 0 <= f < |m.faces|
  {
    Dot(Normal(m, f), Sub(m.vertices[m.faces[f].a], centre)) > 0.0
  }

  /**
    With positive extents every face normal points out of the box: it has a
    positive component along the direction from the centre to the face.
   */
  lemma CubeNormalsOutward(length: real, width: real, height: real)
    requires length > 0.0 && width > 0.0 && height > 0.0
    ensures var m := GenerateCube(length, width, height);
            forall f | 0 <= f < |m.faces| :: FacesOutward(m, f, Centre(length, width, height))
  {
    var m := GenerateCube(length, width, height);
    ShiftedFaceRows(length, width, height);
    assert length * width > 0.0 && length * width * height > 0.0;
    forall f | 0 <= f < |m.faces| ensures FacesOutward(m, f, Centre(length, width, height)) {
      if f < 4 {
        OutwardFacesFrom0(length, width, height, f);
      } else if f < 8 {
        OutwardFacesFrom4(length, width, height, f);
      } else {
        OutwardFacesFrom8(length, width, height, f);
      }
    }
  }

  // CubeNormalsOutward for faces 0..3, 4..7 and 8..11: one statement, split by face range to keep each proof small.
  lemma OutwardFacesFrom0(length: real, width: real, height: real, f: int)
    requires length > 0.0 && width > 0.0 && height > 0.0
    requires length * width * height > 0.0
    requires 0 <= f < 4
    ensures var m := Mesh(Corners(length, width, height), CubeFaces);
            WellFormed(m) && FacesOutward(m, f, Centre(length, width, height))
  {
    Among4(f, 0);
  }

  lemma OutwardFacesFrom4(length: real, width: real, height: real, f: int)
    requires length > 0.0 && width > 0.0 && height > 0.0
    requires length * width * height > 0.0
    requires 4 <= f < 8
    ensures var m := Mesh(Corners(length, width, height), CubeFaces);
            WellFormed(m) && FacesOutward(m, f, Centre(length, width, height))
  {
    Among4(f, 4);
  }

  lemma OutwardFacesFrom8(length: real, width: real, height: real, f: int)
    requires length > 0.0 && width > 0.0 && height > 0.0
    requires length * width * height > 0.0
    requires 8 <= f < 12
    ensures var m := Mesh(Corners(length, width, height), CubeFaces);
            WellFormed(m) && FacesOutward(m, f, Centre(length, width, height))
  {
    Among4(f, 8);
  }
}

=== FILE: mesh.dfy ===
/**
  The mesh representation shared by every generator: a vertex buffer of
  real 3-D points and a face buffer of vertex-index triangles (the `V` and
  `F` matrices of the `Mesh` struct, one row per point or triangle).
 */
module Meshes {

  datatype Vec3 = Vec3(x: real, y: real, z: real)

  /** A triangle as three row indices into the vertex buffer. */
  datatype Tri = Tri(a: int, b: int, c: int)

  datatype Mesh = Mesh(vertices: seq<Vec3>, faces: seq<Tri>)

  const Origin: Vec3 := Vec3(0.0, 0.0, 0.0)

  function Add(p: Vec3, q: Vec3): Vec3 {
    Vec3(p.x + q.x, p.y + q.y, p.z + q.z)
  }

  function Sub(p: Vec3, q: Vec3): Vec3 {
    Vec3(p.x - q.x, p.y - q.y, p.z - q.z)
  }

  function Neg(p: Vec3): Vec3 {
    Vec3(-p.x, -p.y, -p.z)
  }

  function Dot(p: Vec3, q: Vec3): real {
    p.x * q.x + p.y * q.y + p.z * q.z
  }

  function Cross(p: Vec3, q: Vec3): Vec3 {
    Vec3(p.y * q.z - p.z * q.y, p.z * q.x - p.x * q.z, p.x * q.y - p.y * q.x)
  }

  /** Every corner of `t` names a row of a vertex buffer with `n` rows. */
  predicate TriIn(t: Tri, n: int) {
    0 <= t.a < n && 0 <= t.b < n && 0 <= t.c < n
  }

  /** The data-model invariant: every face index is a valid vertex row. */
  predicate WellFormed(m: Mesh) {
    forall f | 0 <= f < |m.faces| :: TriIn(m.faces[f], |m.vertices|)
  }

  /**
    The (unnormalised) normal of face `f` by the right-hand rule:
    (b - a) x (c - a). Its direction is what a face-based renderer shades.
   */
  function Normal(m: Mesh, f: int): Vec3
    requires WellFormed(m) && 0 <= f < |m.faces|
  {
    var t := m.faces[f];
    var p := m.vertices[t.a];
    Cross(Sub(m.vertices[t.b], p), Sub(m.vertices[t.c], p))
  }

  /** A directed edge between two vertex rows. */
  datatype Edge = Edge(from: int, to: int)

  function Reverse(e: Edge): Edge {
    Edge(e.to, e.from)
  }

  /** The `k`-th directed edge of triangle `t` walked in winding order a -> b -> c -> a. */
  function EdgeOf(t: Tri, k: int): Edge
    requires 0 <= k < 3
  {
    if k == 0 then Edge(t.a, t.b) else if k == 1 then Edge(t.b, t.c) else Edge(t.c, t.a)
  }

  /** All directed edges of a face list, three per face, face by face. */
  function DirectedEdges(faces: seq<Tri>): (edges: seq<Edge>)
    ensures |edges| == 3 * |faces|
  {
    seq(3 * |faces|, n requires 0 <= n < 3 * |faces| => EdgeOf(faces[n / 3], n % 3))
  }

  predicate NoDuplicates<T(==)>(s: seq<T>) {
    forall p, q | 0 <= p < q < |s| :: s[p] != s[q]
  }

  /**
    A closed, consistently oriented triangle surface: no directed edge is
    walked twice, and every directed edge is walked backwards by some face.
    Together these say every edge borders exactly two faces, in opposite
    directions (see `ClosedOrientedEdgeCounts`).
   */
  predicate ClosedOriented(faces: seq<Tri>) {
    var edges := DirectedEdges(faces);
    NoDuplicates(edges) && forall p | 0 <= p < |edges| :: Reverse(edges[p]) in edges
  }

  /** In a duplicate-free sequence every element occurs exactly once. */
  lemma {:induction false} DistinctOccursOnce<T>(s: seq<T>, x: T)
    requires NoDuplicates(s)
    ensures multiset(s)[x] == if x in s then 1 else 0
  {
    if |s| > 0 {
      assert s == [s[0]] + s[1..];
      assert NoDuplicates(s[1..]) by {
        forall p, q | 0 <= p < q < |s[1..]| ensures s[1..][p] != s[1..][q] {
          assert s[1..][p] == s[p + 1] && s[1..][q] == s[q + 1];
        }
      }
      assert s[0] !in s[1..] by {
        forall q | 0 <= q < |s[1..]| ensures s[1..][q] != s[0] {
          assert s[1..][q] == s[q + 1];
        }
      }
      DistinctOccursOnce(s[1..], x);
      assert multiset(s) == multiset([s[0]]) + multiset(s[1..]);
    }
  }

  /**
    In a closed, consistently oriented surface each directed edge that
    occurs is walked exactly once, and so is its reverse.
   */
  lemma ClosedOrientedEdgeCounts(faces: seq<Tri>, e: Edge)
    requires ClosedOriented(faces) && e in DirectedEdges(faces)
    ensures multiset(DirectedEdges(faces))[e] == 1
    ensures multiset(DirectedEdges(faces))[Reverse(e)] == 1
  {
    var edges := DirectedEdges(faces);
    var p :| 0 <= p < |edges| && edges[p] == e;
    DistinctOccursOnce(edges, e);
    DistinctOccursOnce(edges, Reverse(e));
  }
}

=== FILE: step_grid.dfy ===
/**
  How `generateSteps` turns its real-valued extents into cell counts and
  buffer sizes, with exact real arithmetic. Write a = width / stepSize and
  b = height / stepSize. The loops run while the loop index is below a
  (respectively b), so they make ceiling-many passes; the buffers are
  allocated with the truncated product 4 * width / stepSize * height /
  stepSize, which is 4 * a * b exactly (2 * a * b for faces). The two agree
  only when both ratios are whole numbers.

  The module also holds the generator as a whole: the as-written one
  (ceiling loops, truncated allocation, raw `width` as the row stride) and
  the corrected one (floor cell counts for the loops and the buffers, and
  the cells-per-row count as the stride).
 */
module StepGrid {
  import opened Wrappers
  import opened Meshes
  import opened Steps
  import opened StepsWriter

  /** The passes of a loop `for (k = 0; k < ratio; k++)`: the least count not below the ratio. */
  function LoopTrips(ratio: real): (n: nat)
    ensures n as real >= ratio
    ensures n == 0 || (n - 1) as real < ratio
  {
    if ratio <= 0.0 then 0 else if ratio.Floor as real == ratio then ratio.Floor else ratio.Floor + 1
  }

  /** Loop index k gets a pass exactly when k is below the ratio. */
  lemma LoopTripsCount(ratio: real, k: nat)
    ensures k < LoopTrips(ratio) <==> (k as real) < ratio
  {
  }

  /** The whole cells that fit along an extent `ratio` cell edges long: the floor of the ratio. */
  function Cells(ratio: real): (n: nat)
    requires ratio >= 0.0
    ensures n as real <= ratio < (n + 1) as real
  {
    ratio.Floor
  }

  /** The rows allocated for `perCell` rows per cell over a-by-b cell edges: perCell * a * b, truncated. */
  function AllocatedRows(perCell: nat, a: real, b: real): (n: nat)
    requires a >= 0.0 && b >= 0.0
    ensures n as real <= perCell as real * a * b < (n + 1) as real
  {
    assert perCell as real * a >= 0.0;
    (perCell as real * a * b).Floor
  }

  /** Both ratios are whole numbers, or one of them gives no pass at all. */
  predicate WholeGrid(a: real, b: real) {
    var nx, ny := LoopTrips(a), LoopTrips(b);
    nx == 0 || ny == 0 || (nx as real == a && ny as real == b)
  }

  /** For non-negative reals, the product of two upper bounds bounds the product, strictly if one bound is strict and the other factor positive. */
  lemma ProductBelow(a: real, b: real, x: real, y: real)
    requires 0.0 <= a <= x && 0.0 <= b <= y
    ensures a * b <= x * y
    ensures a < x && y > 0.0 ==> a * b < x * y
    ensures b < y && x > 0.0 ==> a * b < x * y
  {
    assert a * b <= x * b;
    assert x * b <= x * y;
  }

  /**
    The allocation holds every row the loops write (`perCell` rows per
    pass) exactly when the grid is whole.
   */
  lemma AllocationCoversLoopsIff(a: real, b: real, perCell: nat)
    requires a >= 0.0 && b >= 0.0 && perCell > 0
    ensures perCell * (LoopTrips(a) * LoopTrips(b)) <= AllocatedRows(perCell, a, b) <==> WholeGrid(a, b)
  {
    RoundedUpCountsFit(perCell, a, b, LoopTrips(a), LoopTrips(b), AllocatedRows(perCell, a, b));
  }

  /**
    With counts nx >= a and ny >= b and `alloc` the floor of perCell * a * b,
    perCell * nx * ny rows fit in `alloc` exactly when no count was rounded
    up, or a count is zero.
   */
  lemma RoundedUpCountsFit(perCell: nat, a: real, b: real, nx: nat, ny: nat, alloc: int)
    requires perCell > 0 && 0.0 <= a <= nx as real && 0.0 <= b <= ny as real
    requires alloc as real <= perCell as real * a * b < (alloc + 1) as real
    ensures perCell * (nx * ny) <= alloc <==> nx == 0 || ny == 0 || (nx as real == a && ny as real == b)
  {
    var n := perCell * (nx * ny);
    var p, x, y := perCell as real, nx as real, ny as real;
    FloorComparison(alloc, p * a * b, n);
    IntProductAsReal(perCell, nx, ny);
    ScaledProductIff(p, a, b, x, y);
  }

  /** Converting a product of naturals to a real multiplies the converted factors. */
  lemma IntProductAsReal(p: nat, x: nat, y: nat)
    ensures (p * (x * y)) as real == p as real * x as real * y as real
  {
  }

  /** An integer is at most the floor of `v` exactly when it is at most `v`. */
  lemma FloorComparison(floor: int, v: real, n: int)
    requires floor as real <= v < (floor + 1) as real
    ensures n <= floor <==> n as real <= v
  {
  }

  /** Rounding both factors up grows a product unless nothing was rounded, or a rounded factor is zero. */
  lemma ScaledProductIff(p: real, a: real, b: real, x: real, y: real)
    requires p > 0.0 && 0.0 <= a <= x && 0.0 <= b <= y
    ensures p * x * y <= p * a * b <==> x == 0.0 || y == 0.0 || (x == a && y == b)
  {
    assert p * a * b == p * (a * b) && p * x * y == p * (x * y);
    ProductBelow(a, b, x, y);
    if x == 0.0 || y == 0.0 {
      assert a * b >= 0.0;
    } else if x != a || y != b {
      assert a * b < x * y;
    }
  }

  /**
    With the row-length stride, the last cell fits the truncated buffers
    exactly when the grid is whole, and then the buffers are exactly the
    4 * nx * ny and 2 * nx * ny rows of the grid.
   */
  lemma RowStrideAllocation(a: real, b: real)
    requires a >= 0.0 && b >= 0.0
    ensures var nx, ny := LoopTrips(a), LoopTrips(b);
            var vertexRows, faceRows := AllocatedRows(4, a, b), AllocatedRows(2, a, b);
            && (nx > 0 && ny > 0 && !CellFits(ny, nx - 1, ny - 1, vertexRows, faceRows) <==> !WholeGrid(a, b))
            && (WholeGrid(a, b) ==> vertexRows == 4 * (nx * ny) && faceRows == 2 * (nx * ny))
  {
    var nx, ny := LoopTrips(a), LoopTrips(b);
    AllocationCoversLoopsIff(a, b, 4);
    AllocationCoversLoopsIff(a, b, 2);
    RowStrideReach(nx, ny);
    if nx > 0 && ny > 0 {
      LastCellIsFurthest(nx, ny, ny, nx - 1, ny - 1);
    }
  }

  /** The ratios width / stepSize and height / stepSize, never negative here. */
  function Ratios(width: nat, height: real, stepSize: real): (ab: (real, real))
    requires height >= 0.0 && stepSize > 0.0
    ensures ab.0 >= 0.0 && ab.1 >= 0.0
  {
    (width as real / stepSize, height / stepSize)
  }

  /**
    `generateSteps(width, height, stepSize, ...)` as written, for a whole
    `width`: ceiling-many passes in each direction, buffers of the
    truncated sizes, and `width` as the row stride.
   */
  method GenerateStepsAsWritten(width: nat, height: real, stepSize: real, heights: seq<real>)
    returns (r: Result<Buffers, WriteError>)
    requires height >= 0.0 && stepSize > 0.0
    requires |heights| >= LoopTrips(Ratios(width, height, stepSize).0) * LoopTrips(Ratios(width, height, stepSize).1)
    ensures var (a, b) := Ratios(width, height, stepSize);
            var nx, ny := LoopTrips(a), LoopTrips(b);
            var vertexRows, faceRows := AllocatedRows(4, a, b), AllocatedRows(2, a, b);
            && (r.Failure? <==> nx > 0 && ny > 0 && !CellFits(width, nx - 1, ny - 1, vertexRows, faceRows))
            && (r.Success? ==> |r.value.vertexRows| == vertexRows && |r.value.faceRows| == faceRows)
            && (r.Success? ==> WrittenBelow(r.value, Reach(nx, ny, width)))
            // with the row-length stride, the run fails exactly when the grid is not whole
            && (width == ny ==> (r.Failure? <==> !WholeGrid(a, b)))
            && (width == ny && WholeGrid(a, b) ==> r == Success(Filled(GenerateSteps(nx, ny, stepSize, heights))))
            // for any width: each cell no later cell overwrites is in its rows at offset i * width + j
            && (r.Success? ==> HoldsLastWriters(r.value, nx, ny, width, stepSize, heights))
            // with the row-length stride, or a single row of cells, the written rows are the generated mesh's
            && (r.Success? && (width == ny || nx <= 1) ==> HoldsMesh(r.value, GenerateSteps(nx, ny, stepSize, heights)))
  {
    var (a, b) := Ratios(width, height, stepSize);
    var nx, ny := LoopTrips(a), LoopTrips(b);
    r := WriteSteps(nx, ny, width, AllocatedRows(4, a, b), AllocatedRows(2, a, b), stepSize, heights);
    if width == ny {
      RowStrideAllocation(a, b);
    }
  }

  /**
    The corrected generator: floor(width / stepSize) by floor(height /
    stepSize) whole cells, which tile the plane rectangle [0, width] x
    [0, height] without leaving it.
   */
  function StepsForPlane(width: real, height: real, stepSize: real, heights: seq<real>): (m: Mesh)
    requires width >= 0.0 && height >= 0.0 && stepSize > 0.0
    requires |heights| >= Cells(width / stepSize) * Cells(height / stepSize)
    ensures var nx, ny := Cells(width / stepSize), Cells(height / stepSize);
            |m.vertices| == 4 * (nx * ny) && |m.faces| == 2 * (nx * ny)
    ensures WellFormed(m)
  {
    GenerateSteps(Cells(width / stepSize), Cells(height / stepSize), stepSize, heights)
  }

  /** A step longer than either extent gives the empty mesh, and only then. */
  lemma StepsForPlaneEmptyIff(width: real, height: real, stepSize: real, heights: seq<real>)
    requires width >= 0.0 && height >= 0.0 && stepSize > 0.0
    requires |heights| >= Cells(width / stepSize) * Cells(height / stepSize)
    ensures StepsForPlane(width, height, stepSize, heights) == Mesh([], []) <==> width < stepSize || height < stepSize
  {
    CellsSpan(width, stepSize);
    CellsSpan(height, stepSize);
  }

  /** Every vertex of the corrected mesh lies over the plane rectangle [0, width] x [0, height]. */
  lemma StepsForPlaneInside(width: real, height: real, stepSize: real, heights: seq<real>)
    requires width >= 0.0 && height >= 0.0 && stepSize > 0.0
    requires |heights| >= Cells(width / stepSize) * Cells(height / stepSize)
    ensures var m := StepsForPlane(width, height, stepSize, heights);
            forall r | 0 <= r < |m.vertices| :: 0.0 <= m.vertices[r].x <= width && 0.0 <= m.vertices[r].y <= height
  {
    CellsSpan(width, stepSize);
    CellsSpan(height, stepSize);
    GridWithinExtents(Cells(width / stepSize), Cells(height / stepSize), stepSize, heights, width, height);
  }

  /** A grid whose cells span at most the extents lies over [0, width] x [0, height]. */
  lemma GridWithinExtents(nx: nat, ny: nat, stepSize: real, heights: seq<real>, width: real, height: real)
    requires |heights| >= nx * ny && stepSize >= 0.0
    requires nx as real * stepSize <= width && ny as real * stepSize <= height
    ensures var v := GenerateSteps(nx, ny, stepSize, heights).vertices;
            forall r | 0 <= r < |v| :: 0.0 <= v[r].x <= width && 0.0 <= v[r].y <= height
  {
    StepsWithinPlane(nx, ny, stepSize, heights);
  }

  /** The whole cells along an extent span at most the extent, and there are none exactly when the step is longer. */
  lemma CellsSpan(extent: real, stepSize: real)
    requires extent >= 0.0 && stepSize > 0.0
    ensures Cells(extent / stepSize) as real * stepSize <= extent
    ensures Cells(extent / stepSize) == 0 <==> extent < stepSize
  {
    var q := extent / stepSize;
    var n := Cells(q);
    assert q * stepSize == extent;
    assert n as real * stepSize <= q * stepSize;
    if extent < stepSize {
      assert q < 1.0;
    } else {
      assert q >= 1.0;
    }
  }

  /**
    The corrected loop: the cell counts floor(width / stepSize) and
    floor(height / stepSize) drive both the loops and the allocation, and
    the row stride is the cells-per-row count. It never writes out of
    bounds and fills every row with the corrected mesh.
   */
  method GenerateStepsCorrected(width: real, height: real, stepSize: real, heights: seq<real>)
    returns (r: Result<Buffers, WriteError>)
    requires width >= 0.0 && height >= 0.0 && stepSize > 0.0
    requires |heights| >= Cells(width / stepSize) * Cells(height / stepSize)
    ensures r == Success(Filled(StepsForPlane(width, height, stepSize, heights)))
  {
    var nx, ny := Cells(width / stepSize), Cells(height / stepSize);
    r := WriteSteps(nx, ny, ny, 4 * (nx * ny), 2 * (nx * ny), stepSize, heights);
  }

  /**
    The program's one call, generateSteps(20, 20, 1, 0.4): 20 cells per
    row, width 20 as the stride and a whole grid, so the as-written loop
    fills its buffers with exactly the generated mesh.
   */
  method ShippedCall(heights: seq<real>) returns (r: Result<Buffers, WriteError>)
    requires |heights| >= 400
    ensures r == Success(Filled(GenerateSteps(20, 20, 1.0, heights)))
  {
    assert LoopTrips(20.0) == 20;
    r := GenerateStepsAsWritten(20, 20.0, 1.0, heights);
  }

  /**
    generateSteps(2, 2, 0.5, ...): 4 by 4 cells but stride 2, so cells
    (0, 2) and (1, 0) share rows and the buffers' top rows, which the
    corrected mesh fills, are never written.
   */
  method ShortStrideExample(heights: seq<real>) returns (r: Result<Buffers, WriteError>)
    requires |heights| >= 16
    ensures r.Success? && |r.value.vertexRows| == 64
    ensures forall row | 40 <= row < 64 :: r.value.vertexRows[row] == None
    // cells (0, 2) and (1, 0) share vertex rows 8..11; the later cell's corner is what remains
    ensures r.value.vertexRows[8] == Some(Corner(1, 0, 0, 0.5, heights[4]))
    ensures r.value.vertexRows[8] != Some(Corner(0, 2, 0, 0.5, heights[2]))
    ensures |StepsForPlane(2.0, 2.0, 0.5, heights).vertices| == 64
  {
    assert LoopTrips(4.0) == 4;
    assert Cells(4.0) == 4;
    r := GenerateStepsAsWritten(2, 2.0, 0.5, heights);
    forall i', j' | InGrid(4, 4, i', j') && WrittenBefore(1, 0, i', j')
      ensures CellIndex(2, i', j') != CellIndex(2, 1, 0)
    {
    }
    assert HoldsCell(r.value, 4, 2, 0.5, heights, 1, 0);
  }

  /**
    generateSteps(1, 3, 1, ...): a single row of cells, so the stride 1
    never matters: the run fills its 12 and 6 rows with the 1-by-3 steps mesh.
   */
  method SingleRowExample(heights: seq<real>) returns (r: Result<Buffers, WriteError>)
    requires |heights| >= 3
    ensures r == Success(Filled(GenerateSteps(1, 3, 1.0, heights)))
    ensures r.value.vertexRows[0] == Some(Vec3(0.0, 0.0, heights[0]))
  {
    assert LoopTrips(1.0) == 1 && LoopTrips(3.0) == 3;
    r := GenerateStepsAsWritten(1, 3.0, 1.0, heights);
    assert AllocatedRows(4, 1.0, 3.0) == 12 && AllocatedRows(2, 1.0, 3.0) == 6;
    FilledWhenExact(r.value, GenerateSteps(1, 3, 1.0, heights));
    StepsCorner(1, 3, 1.0, heights, 0, 0, 0);
  }

  /** generateSteps(4, 2, 1, ...): 4 by 2 cells with stride 4; the last cell's rows lie past the 32 allocated. */
  method LongStrideExample(heights: seq<real>) returns (r: Result<Buffers, WriteError>)
    requires |heights| >= 8
    ensures r.Failure?
    // 32 vertex rows are allocated; the last cell's first row lies past them
    ensures AllocatedRows(4, 4.0, 2.0) == 32 && VertexRow(4, 3, 1, 0) >= 32
  {
    assert LoopTrips(4.0) == 4 && LoopTrips(2.0) == 2;
    r := GenerateStepsAsWritten(4, 2.0, 1.0, heights);
  }

  /**
    generateSteps(2, 1.5, 1, ...): the inner loop makes two passes over a
    1.5-cell extent, 16 vertex rows, but only floor(4 * 2 * 1.5) = 12 are
    allocated.
   */
  method FractionalHeightExample(heights: seq<real>) returns (r: Result<Buffers, WriteError>)
    requires |heights| >= 4
    ensures r.Failure?
    // two passes each way write 16 vertex rows; 12 are allocated
    ensures 4 * (LoopTrips(2.0) * LoopTrips(1.5)) == 16 && AllocatedRows(4, 2.0, 1.5) == 12
  {
    assert LoopTrips(2.0) == 2 && LoopTrips(1.5) == 2;
    r := GenerateStepsAsWritten(2, 1.5, 1.0, heights);
  }

  /**
    generateSteps(1, 0.5, 2, ...): a step longer than both extents should
    give the empty mesh, but each loop still makes one pass into buffers
    of floor(4 * 0.5 * 0.25) = 0 rows.
   */
  method OversizedStepExample(heights: seq<real>) returns (r: Result<Buffers, WriteError>)
    requires |heights| >= 1
    ensures r.Failure?
    // one pass each way, into buffers of no rows at all
    ensures LoopTrips(0.5) == 1 && LoopTrips(0.25) == 1 && AllocatedRows(4, 0.5, 0.25) == 0 && AllocatedRows(2, 0.5, 0.25) == 0
    ensures StepsForPlane(1.0, 0.5, 2.0, heights) == Mesh([], [])
  {
    assert 1 as real / 2.0 == 0.5 && 0.5 / 2.0 == 0.25;
    assert LoopTrips(0.5) == 1 && LoopTrips(0.25) == 1;
    assert !WholeGrid(0.5, 0.25);
    StepsForPlaneEmptyIff(1.0, 0.5, 2.0, heights);
    r := GenerateStepsAsWritten(1, 0.5, 2.0, heights);
  }
}

=== FILE: steps.dfy ===
/**
  `generateSteps`: a grid of independent flat quads ("steps"). Cell (i, j)
  of an nx-by-ny grid owns four vertex rows and two face rows at the flat
  cell index i * ny + j, and all four of its corners sit at one elevation
  drawn for that cell.

  This module holds the generator with the intended row stride `ny` (the
  number of cells per row), the row-layout facts for an arbitrary stride,
  and the geometric facts about the generated mesh. `StepsWriter` holds the
  loop as written, whose stride is the raw `width` parameter.
 */
module Steps {
  import opened Meshes

  /** Row-major flat index of cell (i, j) when a row of cells is `stride` long. */
  function CellIndex(stride: int, i: int, j: int): int {
    i * stride + j
  }

  predicate InGrid(nx: int, ny: int, i: int, j: int) {
    0 <= i < nx && 0 <= j < ny
  }

  /** Vertex row `k` (0..3) written for cell (i, j). */
  function VertexRow(stride: int, i: int, j: int, k: int): int {
    4 * CellIndex(stride, i, j) + k
  }

  /** Face row `k` (0..1) written for cell (i, j). */
  function FaceRow(stride: int, i: int, j: int, k: int): int {
    2 * CellIndex(stride, i, j) + k
  }

  /** Every row written for a grid cell lies inside buffers sized for nx * ny cells. */
  ghost predicate WritesInBounds(nx: int, ny: int, stride: int) {
    && (forall i, j, k | InGrid(nx, ny, i, j) && 0 <= k < 4 :: 0 <= VertexRow(stride, i, j, k) < 4 * (nx * ny))
    && (forall i, j, k | InGrid(nx, ny, i, j) && 0 <= k < 2 :: 0 <= FaceRow(stride, i, j, k) < 2 * (nx * ny))
  }

  /** Two different cells never write the same vertex row or the same face row. */
  ghost predicate CellsDisjoint(nx: int, ny: int, stride: int) {
    && (forall i, j, k, i', j', k' |
          InGrid(nx, ny, i, j) && InGrid(nx, ny, i', j') && (i != i' || j != j') && 0 <= k < 4 && 0 <= k' < 4 ::
          VertexRow(stride, i, j, k) != VertexRow(stride, i', j', k'))
    && (forall i, j, k, i', j', k' |
          InGrid(nx, ny, i, j) && InGrid(nx, ny, i', j') && (i != i' || j != j') && 0 <= k < 2 && 0 <= k' < 2 ::
          FaceRow(stride, i, j, k) != FaceRow(stride, i', j', k'))
  }

  /** A cell of the grid has a flat index below the cell count. */
  lemma CellBelowCount(nx: int, ny: int, i: int, j: int)
    requires InGrid(nx, ny, i, j)
    ensures 0 <= CellIndex(ny, i, j) < nx * ny
  {
    assert 0 <= i * ny <= (nx - 1) * ny;
    assert (nx - 1) * ny + ny == nx * ny;
  }

  /** The flat index i * ny + j gives back its row i and column j. */
  lemma CellDivMod(ny: int, i: int, j: int)
    requires 0 <= j < ny
    ensures CellIndex(ny, i, j) / ny == i && CellIndex(ny, i, j) % ny == j
  {
    var c := i * ny + j;
    var q, r := c / ny, c % ny;
    assert (i - q) * ny == r - j;
    MultipleBounds(i - q, ny);
  }

  /** A non-zero multiple of a positive `n` is at least `n` away from 0. */
  lemma MultipleBounds(d: int, n: int)
    requires n > 0
    ensures d >= 1 ==> d * n >= n
    ensures d <= -1 ==> d * n <= -n
  {
    if d >= 1 {
      assert d * n == (d - 1) * n + n;
    } else if d <= -1 {
      assert d * n == (d + 1) * n - n;
    }
  }

  /** With stride `ny` every flat index below the cell count is some cell's. */
  lemma CellOfIndex(nx: int, ny: int, c: int)
    requires 0 <= c < nx * ny && ny > 0
    ensures InGrid(nx, ny, c / ny, c % ny) && CellIndex(ny, c / ny, c % ny) == c
  {
  }

  /** Rows are four (or two) per cell, so different cells own different rows. */
  lemma RowsSeparateCells(c: int, c': int, k: int, k': int, per: int)
    requires per == 2 || per == 4
    requires 0 <= k < per && 0 <= k' < per
    requires per * c + k == per * c' + k'
    ensures c == c' && k == k'
  {
  }

  /**
    With the row stride equal to the number of cells per row, every write
    of every cell is in bounds and no two cells share a row, for any grid.
   */
  lemma RowLengthStrideIsSound(nx: int, ny: int)
    ensures WritesInBounds(nx, ny, ny)
    ensures CellsDisjoint(nx, ny, ny)
  {
    forall i, j, k | InGrid(nx, ny, i, j) && 0 <= k < 4
      ensures 0 <= VertexRow(ny, i, j, k) < 4 * (nx * ny)
    {
      CellBelowCount(nx, ny, i, j);
    }
    forall i, j, k | InGrid(nx, ny, i, j) && 0 <= k < 2
      ensures 0 <= FaceRow(ny, i, j, k) < 2 * (nx * ny)
    {
      CellBelowCount(nx, ny, i, j);
    }
    forall i, j, k, i', j', k' |
      InGrid(nx, ny, i, j) && InGrid(nx, ny, i', j') && (i != i' || j != j') && 0 <= k < 4 && 0 <= k' < 4
      ensures VertexRow(ny, i, j, k) != VertexRow(ny, i', j', k')
    {
      SameIndexSameCell(ny, i, j, i', j');
      if VertexRow(ny, i, j, k) == VertexRow(ny, i', j', k') {
        RowsSeparateCells(CellIndex(ny, i, j), CellIndex(ny, i', j'), k, k', 4);
      }
    }
    forall i, j, k, i', j', k' |
      InGrid(nx, ny, i, j) && InGrid(nx, ny, i', j') && (i != i' || j != j') && 0 <= k < 2 && 0 <= k' < 2
      ensures FaceRow(ny, i, j, k) != FaceRow(ny, i', j', k')
    {
      SameIndexSameCell(ny, i, j, i', j');
      if FaceRow(ny, i, j, k) == FaceRow(ny, i', j', k') {
        RowsSeparateCells(CellIndex(ny, i, j), CellIndex(ny, i', j'), k, k', 2);
      }
    }
  }

  /** With stride `ny`, two cells with one flat index are one cell. */
  lemma SameIndexSameCell(ny: int, i: int, j: int, i': int, j': int)
    requires 0 <= j < ny && 0 <= j' < ny
    ensures CellIndex(ny, i, j) == CellIndex(ny, i', j') ==> i == i' && j == j'
  {
    CellDivMod(ny, i, j);
    CellDivMod(ny, i', j');
  }

  /**
    For a grid at least two cells long in x, the writes stay in bounds and
    the cells stay disjoint exactly when the stride is the row length `ny`.
    A longer stride sends the last cell past the end of the buffers; a
    shorter non-negative one makes cell (0, stride) and cell (1, 0) write
    the same rows; a negative one sends cell (1, 0) below row 0.
   */
  lemma LayoutSoundIff(nx: int, ny: int, stride: int)
    requires nx >= 2 && ny >= 1
    ensures WritesInBounds(nx, ny, stride) && CellsDisjoint(nx, ny, stride) <==> stride == ny
    // the witnesses: the last cell overruns, cells (0, stride) and (1, 0) collide, or cell (1, 0) underruns
    ensures stride > ny ==> InGrid(nx, ny, nx - 1, ny - 1) && VertexRow(stride, nx - 1, ny - 1, 0) >= 4 * (nx * ny)
    ensures 0 <= stride < ny ==> InGrid(nx, ny, 0, stride) && InGrid(nx, ny, 1, 0)
                                 && VertexRow(stride, 0, stride, 0) == VertexRow(stride, 1, 0, 0)
    ensures stride < 0 ==> InGrid(nx, ny, 1, 0) && VertexRow(stride, 1, 0, 0) < 0
  {
    if stride == ny {
      RowLengthStrideIsSound(nx, ny);
    } else if stride > ny {
      LongStrideOverruns(nx, ny, stride);
      assert VertexRow(stride, nx - 1, ny - 1, 0) >= 4 * (nx * ny);
      assert InGrid(nx, ny, nx - 1, ny - 1);
    } else if stride >= 0 {
      assert VertexRow(stride, 0, stride, 0) == VertexRow(stride, 1, 0, 0);
      assert InGrid(nx, ny, 0, stride) && InGrid(nx, ny, 1, 0);
    } else {
      assert VertexRow(stride, 1, 0, 0) < 0;
      assert InGrid(nx, ny, 1, 0);
    }
  }

  /** A stride longer than the row length sends the last cell past buffers sized for nx * ny cells. */
  lemma LongStrideOverruns(nx: int, ny: int, stride: int)
    requires nx >= 2 && ny >= 1 && stride > ny
    ensures CellIndex(stride, nx - 1, ny - 1) >= nx * ny
  {
    var extra := stride - ny - 1;
    assert (nx - 1) * stride == (nx - 1) * (ny + 1) + (nx - 1) * extra;
    assert (nx - 1) * extra >= 0;
    assert (nx - 1) * (ny + 1) == nx * ny + nx - ny - 1;
  }

  /**
    The one call in the program, generateSteps(20, 20, 1, 0.4), has 20 cells
    per row and passes width 20 as the stride, so its layout is sound.
   */
  lemma ShippedCallLayoutSound()
    ensures WritesInBounds(20, 20, 20) && CellsDisjoint(20, 20, 20)
  {
    LayoutSoundIff(20, 20, 20);
  }

  /** Corner `k` (0..3) of cell (i, j): corners 1 and 3 are one step along x, corners 2 and 3 along y. */
  function Corner(i: int, j: int, k: int, stepSize: real, z: real): Vec3 {
    var dx := if k == 1 || k == 3 then 1 else 0;
    var dy := if k == 2 || k == 3 then 1 else 0;
    Vec3((i + dx) as real * stepSize, (j + dy) as real * stepSize, z)
  }

  /** Vertex row `r`: corner r % 4 of the cell with flat index r / 4 in rows of `ny` cells. */
  function StepVertex(ny: int, stepSize: real, heights: seq<real>, r: int): Vec3
    requires ny > 0 && 0 <= r && r / 4 < |heights|
  {
    var c := r / 4;
    Corner(c / ny, c % ny, r % 4, stepSize, heights[c])
  }

  /** Face row `f`: one of the two triangles over the four rows of cell f / 2. */
  function StepFace(f: int): Tri {
    var c := f / 2;
    if f % 2 == 0 then Tri(4 * c, 4 * c + 1, 4 * c + 2) else Tri(4 * c + 1, 4 * c + 2, 4 * c + 3)
  }

  /**
    The steps mesh of an nx-by-ny grid with cell edge `stepSize`; cell c
    (in loop order) takes its elevation from heights[c], the c-th draw.
   */
  function GenerateSteps(nx: nat, ny: nat, stepSize: real, heights: seq<real>): (m: Mesh)
    requires |heights| >= nx * ny
    ensures |m.vertices| == 4 * (nx * ny) && |m.faces| == 2 * (nx * ny)
    ensures m.vertices == [] && m.faces == [] <==> nx == 0 || ny == 0
    ensures WellFormed(m)
  {
    var cells := nx * ny;
    if cells == 0 then Mesh([], [])
    else
      Mesh(seq(4 * cells, r requires 0 <= r < 4 * cells => StepVertex(ny, stepSize, heights, r)),
           seq(2 * cells, f requires 0 <= f < 2 * cells => StepFace(f)))
  }

  /** Row 4c + k of the layout is corner `k` of cell (i, j), where c = i * ny + j. */
  lemma StepVertexOfCell(ny: int, stepSize: real, heights: seq<real>, i: int, j: int, k: int)
    requires 0 <= i && 0 <= j < ny && 0 <= k < 4
    requires CellIndex(ny, i, j) < |heights|
    ensures StepVertex(ny, stepSize, heights, 4 * CellIndex(ny, i, j) + k)
            == Corner(i, j, k, stepSize, heights[CellIndex(ny, i, j)])
  {
    var c := CellIndex(ny, i, j);
    assert (4 * c + k) / 4 == c && (4 * c + k) % 4 == k;
    CellDivMod(ny, i, j);
  }

  /**
    The four vertices of cell (i, j) sit at rows 4c .. 4c + 3 with
    c = i * ny + j, at the four corners of the cell's square, all at the
    elevation of the cell's draw.
   */
  lemma StepsCellVertices(nx: nat, ny: nat, stepSize: real, heights: seq<real>, i: int, j: int)
    requires |heights| >= nx * ny
    requires InGrid(nx, ny, i, j)
    ensures 0 <= CellIndex(ny, i, j) < nx * ny
    ensures var c := CellIndex(ny, i, j);
            var v := GenerateSteps(nx, ny, stepSize, heights).vertices;
            var h := heights[c];
            && v[4 * c] == Vec3(i as real * stepSize, j as real * stepSize, h)
            && v[4 * c + 1] == Vec3((i + 1) as real * stepSize, j as real * stepSize, h)
            && v[4 * c + 2] == Vec3(i as real * stepSize, (j + 1) as real * stepSize, h)
            && v[4 * c + 3] == Vec3((i + 1) as real * stepSize, (j + 1) as real * stepSize, h)
  {
    CellBelowCount(nx, ny, i, j);
    StepsCorner(nx, ny, stepSize, heights, i, j, 0);
    StepsCorner(nx, ny, stepSize, heights, i, j, 1);
    StepsCorner(nx, ny, stepSize, heights, i, j, 2);
    StepsCorner(nx, ny, stepSize, heights, i, j, 3);
    CornerValues(i, j, stepSize, heights[CellIndex(ny, i, j)]);
  }

  lemma CornerValues(i: int, j: int, stepSize: real, z: real)
    ensures Corner(i, j, 0, stepSize, z) == Vec3(i as real * stepSize, j as real * stepSize, z)
    ensures Corner(i, j, 1, stepSize, z) == Vec3((i + 1) as real * stepSize, j as real * stepSize, z)
    ensures Corner(i, j, 2, stepSize, z) == Vec3(i as real * stepSize, (j + 1) as real * stepSize, z)
    ensures Corner(i, j, 3, stepSize, z) == Vec3((i + 1) as real * stepSize, (j + 1) as real * stepSize, z)
  {
  }

  lemma StepsCorner(nx: nat, ny: nat, stepSize: real, heights: seq<real>, i: int, j: int, k: int)
    requires |heights| >= nx * ny
    requires InGrid(nx, ny, i, j) && 0 <= k < 4
    ensures 0 <= CellIndex(ny, i, j) < nx * ny
    ensures GenerateSteps(nx, ny, stepSize, heights).vertices[4 * CellIndex(ny, i, j) + k]
            == Corner(i, j, k, stepSize, heights[CellIndex(ny, i, j)])
  {
    CellBelowCount(nx, ny, i, j);
    StepVertexOfCell(ny, stepSize, heights, i, j, k);
  }

  /**
    Cell c's two triangles are (4c, 4c+1, 4c+2) and (4c+1, 4c+2, 4c+3): they
    use only the cell's own four vertices and both walk the diagonal edge
    4c+1 -> 4c+2 in the same direction.
   */
  lemma StepsCellFaces(nx: nat, ny: nat, stepSize: real, heights: seq<real>, c: int)
    requires |heights| >= nx * ny
    requires 0 <= c < nx * ny
    ensures var f := GenerateSteps(nx, ny, stepSize, heights).faces;
            && f[2 * c] == Tri(4 * c, 4 * c + 1, 4 * c + 2)
            && f[2 * c + 1] == Tri(4 * c + 1, 4 * c + 2, 4 * c + 3)
            && EdgeOf(f[2 * c], 1) == EdgeOf(f[2 * c + 1], 0) == Edge(4 * c + 1, 4 * c + 2)
  {
    var f := GenerateSteps(nx, ny, stepSize, heights).faces;
    assert f[2 * c] == StepFace(2 * c);
    assert f[2 * c + 1] == StepFace(2 * c + 1);
  }

  /** No face reaches outside its own cell: cells share no vertex. */
  lemma StepsFacesStayInCell(nx: nat, ny: nat, stepSize: real, heights: seq<real>)
    requires |heights| >= nx * ny
    ensures var m := GenerateSteps(nx, ny, stepSize, heights);
            forall f | 0 <= f < |m.faces| ::
              var lo := 4 * (f / 2);
              lo <= m.faces[f].a < lo + 4 && lo <= m.faces[f].b < lo + 4 && lo <= m.faces[f].c < lo + 4
  {
  }

  /** Given draws in [0.1, maxHeight), every vertex elevation lies in that range. */
  lemma StepsHeightsInRange(nx: nat, ny: nat, stepSize: real, heights: seq<real>, maxHeight: real)
    requires |heights| >= nx * ny
    requires forall k | 0 <= k < |heights| :: 0.1 <= heights[k] < maxHeight
    ensures var v := GenerateSteps(nx, ny, stepSize, heights).vertices;
            forall r | 0 <= r < |v| :: 0.1 <= v[r].z < maxHeight
  {
    var v := GenerateSteps(nx, ny, stepSize, heights).vertices;
    forall r | 0 <= r < |v| ensures 0.1 <= v[r].z < maxHeight {
      assert v[r] == StepVertex(ny, stepSize, heights, r);
    }
  }

  /** For a non-negative step every vertex lies in [0, nx * step] x [0, ny * step]. */
  lemma StepsWithinPlane(nx: nat, ny: nat, stepSize: real, heights: seq<real>)
    requires |heights| >= nx * ny
    requires stepSize >= 0.0
    ensures var v := GenerateSteps(nx, ny, stepSize, heights).vertices;
            forall r | 0 <= r < |v| ::
              0.0 <= v[r].x <= nx as real * stepSize && 0.0 <= v[r].y <= ny as real * stepSize
  {
    var v := GenerateSteps(nx, ny, stepSize, heights).vertices;
    forall r | 0 <= r < |v|
      ensures 0.0 <= v[r].x <= nx as real * stepSize && 0.0 <= v[r].y <= ny as real * stepSize
    {
      VertexWithinPlane(nx, ny, stepSize, heights, r);
    }
  }

  /** One vertex row of the steps mesh lies over the plane rectangle. */
  lemma VertexWithinPlane(nx: nat, ny: nat, stepSize: real, heights: seq<real>, r: int)
    requires |heights| >= nx * ny
    requires stepSize >= 0.0
    requires 0 <= r < 4 * (nx * ny)
    ensures var v := GenerateSteps(nx, ny, stepSize, heights).vertices;
            0.0 <= v[r].x <= nx as real * stepSize && 0.0 <= v[r].y <= ny as real * stepSize
  {
    var c := r / 4;
    assert ny > 0 && c < nx * ny;
    CellOfIndex(nx, ny, c);
    assert GenerateSteps(nx, ny, stepSize, heights).vertices[r] == StepVertex(ny, stepSize, heights, r);
    CornerWithin(nx, ny, c / ny, c % ny, r % 4, stepSize, heights[c]);
  }

  /** Every corner of a cell in the grid lies over [0, nx * s] x [0, ny * s]. */
  lemma CornerWithin(nx: int, ny: int, i: int, j: int, k: int, stepSize: real, z: real)
    requires InGrid(nx, ny, i, j) && 0 <= k < 4 && stepSize >= 0.0
    ensures var p := Corner(i, j, k, stepSize, z);
            0.0 <= p.x <= nx as real * stepSize && 0.0 <= p.y <= ny as real * stepSize
  {
    var a := i + (if k == 1 || k == 3 then 1 else 0);
    var b := j + (if k == 2 || k == 3 then 1 else 0);
    assert Corner(i, j, k, stepSize, z) == Vec3(a as real * stepSize, b as real * stepSize, z);
    ScaleBelow(a, nx, stepSize);
    ScaleBelow(b, ny, stepSize);
  }

  lemma ScaleBelow(a: int, b: int, s: real)
    requires 0 <= a <= b && s >= 0.0
    ensures 0.0 <= a as real * s <= b as real * s
  {
  }

  /**
    The two triangles of a cell face opposite ways: by the right-hand rule
    the first one's normal points up (+z) and the second one's down (-z).
   */
  lemma StepsCellNormals(nx: nat, ny: nat, stepSize: real, heights: seq<real>, i: int, j: int)
    requires |heights| >= nx * ny
    requires InGrid(nx, ny, i, j)
    ensures var m := GenerateSteps(nx, ny, stepSize, heights);
            var c := CellIndex(ny, i, j);
            && 0 <= 2 * c + 1 < |m.faces|
            && Normal(m, 2 * c) == Vec3(0.0, 0.0, stepSize * stepSize)
            && Normal(m, 2 * c + 1) == Vec3(0.0, 0.0, -(stepSize * stepSize))
  {
    var c := CellIndex(ny, i, j);
    var m := GenerateSteps(nx, ny, stepSize, heights);
    StepsCorner(nx, ny, stepSize, heights, i, j, 0);
    StepsCorner(nx, ny, stepSize, heights, i, j, 1);
    StepsCorner(nx, ny, stepSize, heights, i, j, 2);
    StepsCorner(nx, ny, stepSize, heights, i, j, 3);
    StepsCellFaces(nx, ny, stepSize, heights, c);
    var z := heights[c];
    var p0, p1, p2, p3 := Corner(i, j, 0, stepSize, z), Corner(i, j, 1, stepSize, z), Corner(i, j, 2, stepSize, z), Corner(i, j, 3, stepSize, z);
    assert Normal(m, 2 * c) == Cross(Sub(p1, p0), Sub(p2, p0));
    assert Normal(m, 2 * c + 1) == Cross(Sub(p2, p1), Sub(p3, p1));
    CellCrossProducts(i, j, stepSize, z);
  }

  /** The cross products behind `StepsCellNormals`, for one flat unit cell at height `z`. */
  lemma CellCrossProducts(i: int, j: int, s: real, z: real)
    ensures var p0, p1, p2, p3 := Corner(i, j, 0, s, z), Corner(i, j, 1, s, z), Corner(i, j, 2, s, z), Corner(i, j, 3, s, z);
            && Cross(Sub(p1, p0), Sub(p2, p0)) == Vec3(0.0, 0.0, s * s)
            && Cross(Sub(p2, p1), Sub(p3, p1)) == Vec3(0.0, 0.0, -(s * s))
  {
    CornerValues(i, j, s, z);
    var x, y := i as real, j as real;
    assert (x + 1.0) * s - x * s == s;
    assert (y + 1.0) * s - y * s == s;
  }
}

=== FILE: steps_writer.dfy ===
/**
  The `generateSteps` loop as written: two nested loops over the cells in
  row-major order, one draw per cell, and for each cell four vertex-row
  writes and two face-row writes at flat cell offset i * stride + j, into
  buffers allocated up front. The buffers are sequences of optional rows:
  a row the loop never writes stays `None` (the source leaves such a
  matrix row uninitialised). A write past the end of a buffer is an error
  (Eigen's bounds assertion, or undefined behaviour without it), modelled
  as a `Failure` naming the cell.
 */
module StepsWriter {
  import opened Wrappers
  import opened Meshes
  import opened Steps

  datatype Buffers = Buffers(vertexRows: seq<Option<Vec3>>, faceRows: seq<Option<Tri>>)

  datatype WriteError = CellOutOfRange(i: int, j: int)

  /** The buffers holding exactly the rows of `m`, every one written. */
  function Filled(m: Mesh): Buffers {
    Buffers(seq(|m.vertices|, r requires 0 <= r < |m.vertices| => Some(m.vertices[r])),
            seq(|m.faces|, f requires 0 <= f < |m.faces| => Some(m.faces[f])))
  }

  /** All six writes of cell (i, j) land inside buffers of the given sizes. */
  predicate CellFits(stride: int, i: int, j: int, vertexRows: int, faceRows: int) {
    4 * CellIndex(stride, i, j) + 3 < vertexRows && 2 * CellIndex(stride, i, j) + 1 < faceRows
  }

  /**
    The number of leading cell slots the first `i` rows of cells can reach:
    row i' writes slots i' * stride .. i' * stride + ny - 1.
   */
  function Reach(i: int, ny: int, stride: int): int {
    if i <= 0 || ny <= 0 then 0 else (i - 1) * stride + ny
  }

  /** With a non-negative stride no cell has a larger flat index than the last one. */
  lemma LastCellIsFurthest(nx: int, ny: int, stride: int, i: int, j: int)
    requires stride >= 0 && InGrid(nx, ny, i, j)
    ensures CellIndex(stride, i, j) <= CellIndex(stride, nx - 1, ny - 1)
    ensures CellIndex(stride, nx - 1, ny - 1) + 1 == Reach(nx, ny, stride)
  {
    assert i * stride <= (nx - 1) * stride;
  }

  /** The slots reached by a stride-`ny` grid are exactly its nx * ny cells. */
  lemma RowStrideReach(nx: int, ny: int)
    requires nx >= 0 && ny >= 0
    ensures Reach(nx, ny, ny) == nx * ny
  {
    if nx > 0 && ny > 0 {
      assert (nx - 1) * ny + ny == nx * ny;
    }
  }

  /**
    A stride shorter than the row length reaches fewer slots than there are
    cells (for at least two rows of cells), so the buffers' last rows stay
    unwritten.
   */
  lemma ShortStrideReach(nx: int, ny: int, stride: int)
    requires nx >= 2 && 0 <= stride < ny
    ensures Reach(nx, ny, stride) < nx * ny
  {
    assert (nx - 1) * stride <= (nx - 1) * (ny - 1);
    assert (nx - 1) * (ny - 1) + ny == nx * ny - nx + 1;
  }

  /** Cell (i, j) written at flat offset `c` with elevation `z`: four corner rows and two triangles. */
  function WriteCell(b: Buffers, c: nat, i: int, j: int, stepSize: real, z: real): (b': Buffers)
    requires 4 * c + 3 < |b.vertexRows| && 2 * c + 1 < |b.faceRows|
    ensures |b'.vertexRows| == |b.vertexRows| && |b'.faceRows| == |b.faceRows|
    ensures forall row | 0 <= row < |b.vertexRows| && row / 4 != c :: b'.vertexRows[row] == b.vertexRows[row]
    ensures forall row | 0 <= row < |b.faceRows| && row / 2 != c :: b'.faceRows[row] == b.faceRows[row]
  {
    Buffers(b.vertexRows[4 * c := Some(Corner(i, j, 0, stepSize, z))][4 * c + 1 := Some(Corner(i, j, 1, stepSize, z))]
                        [4 * c + 2 := Some(Corner(i, j, 2, stepSize, z))][4 * c + 3 := Some(Corner(i, j, 3, stepSize, z))],
            b.faceRows[2 * c := Some(Tri(4 * c, 4 * c + 1, 4 * c + 2))][2 * c + 1 := Some(Tri(4 * c + 1, 4 * c + 2, 4 * c + 3))])
  }

  /** Only the rows of the first `n` cell slots have been written. */
  predicate WrittenBelow(b: Buffers, n: int) {
    && (forall row | 0 <= row < |b.vertexRows| && b.vertexRows[row].Some? :: row < 4 * n)
    && (forall row | 0 <= row < |b.faceRows| && b.faceRows[row].Some? :: row < 2 * n)
  }

  /** Writing a cell inside the first `n` slots keeps every written row inside them. */
  lemma WriteCellStaysBelow(b: Buffers, c: nat, i: int, j: int, stepSize: real, z: real, n: int)
    requires 4 * c + 3 < |b.vertexRows| && 2 * c + 1 < |b.faceRows|
    requires WrittenBelow(b, n) && c < n
    ensures WrittenBelow(WriteCell(b, c, i, j, stepSize, z), n)
  {
  }

  /** The first i + 1 rows of cells reach at least as far as the first i, and cover every cell of row i. */
  lemma ReachGrows(i: int, ny: int, stride: int, j: int)
    requires 0 <= i && 0 <= j < ny && stride >= 0
    ensures Reach(i, ny, stride) <= Reach(i + 1, ny, stride)
    ensures CellIndex(stride, i, j) < Reach(i + 1, ny, stride)
  {
  }

  /** Cell (i', j') comes before cell (i, j) in the loops' row-major order. */
  predicate WrittenBefore(i': int, j': int, i: int, j: int) {
    i' < i || (i' == i && j' < j)
  }

  /**
    No cell the loops write after (i, j) and before they reach cell (I, J)
    has the same flat offset as (i, j), so nothing has overwritten its rows.
   */
  ghost predicate KeepsSlot(ny: int, stride: int, i: int, j: int, I: int, J: int) {
    forall i', j' {:trigger CellIndex(stride, i', j')} | 0 <= j' < ny && WrittenBefore(i, j, i', j') && WrittenBefore(i', j', I, J) ::
      CellIndex(stride, i', j') != CellIndex(stride, i, j)
  }

  /** No later cell of the nx-by-ny grid has the flat offset of cell (i, j): it is the last to write its rows. */
  ghost predicate LastInSlot(nx: int, ny: int, stride: int, i: int, j: int) {
    forall i', j' {:trigger CellIndex(stride, i', j')} | InGrid(nx, ny, i', j') && WrittenBefore(i, j, i', j') ::
      CellIndex(stride, i', j') != CellIndex(stride, i, j)
  }

  /**
    The rows at cell (i, j)'s flat offset c = i * stride + j hold that cell:
    its four corners at its own draw heights[i * ny + j], and its two
    triangles over rows 4c .. 4c + 3.
   */
  predicate HoldsCell(b: Buffers, ny: int, stride: int, stepSize: real, heights: seq<real>, i: int, j: int) {
    var c := CellIndex(stride, i, j);
    var d := CellIndex(ny, i, j);
    && 0 <= c && 4 * c + 3 < |b.vertexRows| && 2 * c + 1 < |b.faceRows|
    && 0 <= d < |heights|
    && b.vertexRows[4 * c] == Some(Corner(i, j, 0, stepSize, heights[d]))
    && b.vertexRows[4 * c + 1] == Some(Corner(i, j, 1, stepSize, heights[d]))
    && b.vertexRows[4 * c + 2] == Some(Corner(i, j, 2, stepSize, heights[d]))
    && b.vertexRows[4 * c + 3] == Some(Corner(i, j, 3, stepSize, heights[d]))
    && b.faceRows[2 * c] == Some(Tri(4 * c, 4 * c + 1, 4 * c + 2))
    && b.faceRows[2 * c + 1] == Some(Tri(4 * c + 1, 4 * c + 2, 4 * c + 3))
  }

  /** Every cell written before the loops reach (I, J), and not overwritten since, is held in its rows. */
  ghost predicate LastWritersHeld(b: Buffers, ny: int, stride: int, stepSize: real, heights: seq<real>, I: int, J: int) {
    forall i', j' {:trigger HoldsCell(b, ny, stride, stepSize, heights, i', j')}
      | 0 <= i' && 0 <= j' < ny && WrittenBefore(i', j', I, J) && KeepsSlot(ny, stride, i', j', I, J) ::
      HoldsCell(b, ny, stride, stepSize, heights, i', j')
  }

  /** Every cell of the nx-by-ny grid that is the last to write its slot is held in its rows. */
  ghost predicate HoldsLastWriters(b: Buffers, nx: int, ny: int, stride: int, stepSize: real, heights: seq<real>) {
    forall i, j | InGrid(nx, ny, i, j) && LastInSlot(nx, ny, stride, i, j) :: HoldsCell(b, ny, stride, stepSize, heights, i, j)
  }

  /** The buffers' leading rows are exactly the rows of `m`, every one written. */
  predicate HoldsMesh(b: Buffers, m: Mesh) {
    && |m.vertices| <= |b.vertexRows| && |m.faces| <= |b.faceRows|
    && (forall row | 0 <= row < |m.vertices| :: b.vertexRows[row] == Some(m.vertices[row]))
    && (forall row | 0 <= row < |m.faces| :: b.faceRows[row] == Some(m.faces[row]))
  }

  /** Buffers that hold a mesh and have exactly its row counts are that mesh, filled. */
  lemma FilledWhenExact(b: Buffers, m: Mesh)
    requires HoldsMesh(b, m) && |b.vertexRows| == |m.vertices| && |b.faceRows| == |m.faces|
    ensures b == Filled(m)
  {
    assert b.vertexRows == Filled(m).vertexRows;
    assert b.faceRows == Filled(m).faceRows;
  }

  /** A cell just written is held in its rows. */
  lemma WriteCellHolds(b: Buffers, ny: int, stride: nat, stepSize: real, heights: seq<real>, i: int, j: int)
    requires 0 <= i && 0 <= j < ny
    requires CellFits(stride, i, j, |b.vertexRows|, |b.faceRows|)
    requires 0 <= CellIndex(ny, i, j) < |heights|
    ensures 0 <= CellIndex(stride, i, j)
    ensures HoldsCell(WriteCell(b, CellIndex(stride, i, j), i, j, stepSize, heights[CellIndex(ny, i, j)]),
                      ny, stride, stepSize, heights, i, j)
  {
    assert i * stride >= 0;
  }

  /** Writing a cell at another flat offset leaves a held cell's rows alone. */
  lemma WriteCellKeepsHeld(b: Buffers, ny: int, stride: nat, stepSize: real, heights: seq<real>, i: int, j: int, z: real, i': int, j': int)
    requires 0 <= CellIndex(stride, i, j)
    requires CellFits(stride, i, j, |b.vertexRows|, |b.faceRows|)
    requires HoldsCell(b, ny, stride, stepSize, heights, i', j')
    requires CellIndex(stride, i', j') != CellIndex(stride, i, j)
    ensures HoldsCell(WriteCell(b, CellIndex(stride, i, j), i, j, stepSize, z), ny, stride, stepSize, heights, i', j')
  {
    var c' := CellIndex(stride, i', j');
    assert (4 * c') / 4 == c' && (4 * c' + 1) / 4 == c' && (4 * c' + 2) / 4 == c' && (4 * c' + 3) / 4 == c';
    assert (2 * c') / 2 == c' && (2 * c' + 1) / 2 == c';
  }

  /** Writing cell (i, j) keeps every last writer held, now including (i, j) itself. */
  lemma WriteCellKeepsLastWriters(b: Buffers, ny: int, stride: nat, stepSize: real, heights: seq<real>, i: int, j: int)
    requires 0 <= i && 0 <= j < ny
    requires CellFits(stride, i, j, |b.vertexRows|, |b.faceRows|)
    requires 0 <= CellIndex(ny, i, j) < |heights|
    requires LastWritersHeld(b, ny, stride, stepSize, heights, i, j)
    ensures 0 <= CellIndex(stride, i, j)
    ensures LastWritersHeld(WriteCell(b, CellIndex(stride, i, j), i, j, stepSize, heights[CellIndex(ny, i, j)]),
                            ny, stride, stepSize, heights, i, j + 1)
  {
    WriteCellHolds(b, ny, stride, stepSize, heights, i, j);
    var z := heights[CellIndex(ny, i, j)];
    var b' := WriteCell(b, CellIndex(stride, i, j), i, j, stepSize, z);
    forall i', j' | 0 <= i' && 0 <= j' < ny && WrittenBefore(i', j', i, j + 1) && KeepsSlot(ny, stride, i', j', i, j + 1)
      ensures HoldsCell(b', ny, stride, stepSize, heights, i', j')
    {
      if i' != i || j' != j {
        assert WrittenBefore(i', j', i, j) && WrittenBefore(i, j, i, j + 1);
        KeepsSlotEarlier(ny, stride, i', j', i, j);
        WriteCellKeepsHeld(b, ny, stride, stepSize, heights, i, j, z, i', j');
      }
    }
  }

  /** What survives until the loops pass (i, j) survived until they reached it, and differs from (i, j)'s slot. */
  lemma KeepsSlotEarlier(ny: int, stride: int, i': int, j': int, i: int, j: int)
    requires 0 <= j < ny && WrittenBefore(i', j', i, j)
    requires KeepsSlot(ny, stride, i', j', i, j + 1)
    ensures KeepsSlot(ny, stride, i', j', i, j)
    ensures CellIndex(stride, i, j) != CellIndex(stride, i', j')
  {
    assert WrittenBefore(i, j, i, j + 1);
  }

  /** Reaching the end of row i of cells is reaching the start of row i + 1. */
  lemma LastWritersNextRow(b: Buffers, ny: int, stride: int, stepSize: real, heights: seq<real>, i: int)
    requires LastWritersHeld(b, ny, stride, stepSize, heights, i, ny)
    ensures LastWritersHeld(b, ny, stride, stepSize, heights, i + 1, 0)
  {
    forall i', j' | 0 <= i' && 0 <= j' < ny && WrittenBefore(i', j', i + 1, 0) && KeepsSlot(ny, stride, i', j', i + 1, 0)
      ensures HoldsCell(b, ny, stride, stepSize, heights, i', j')
    {
      assert WrittenBefore(i', j', i, ny);
      forall i'', j'' | 0 <= j'' < ny && WrittenBefore(i', j', i'', j'') && WrittenBefore(i'', j'', i, ny)
        ensures CellIndex(stride, i'', j'') != CellIndex(stride, i', j')
      {
        assert WrittenBefore(i'', j'', i + 1, 0);
      }
    }
  }

  /** Once the loops are past the grid, every cell last in its slot is held. */
  lemma LastWritersAtEnd(b: Buffers, nx: int, ny: int, stride: int, stepSize: real, heights: seq<real>)
    requires LastWritersHeld(b, ny, stride, stepSize, heights, nx, 0)
    ensures HoldsLastWriters(b, nx, ny, stride, stepSize, heights)
  {
    forall i, j | InGrid(nx, ny, i, j) && LastInSlot(nx, ny, stride, i, j)
      ensures HoldsCell(b, ny, stride, stepSize, heights, i, j)
    {
      assert WrittenBefore(i, j, nx, 0);
      forall i', j' | 0 <= j' < ny && WrittenBefore(i, j, i', j') && WrittenBefore(i', j', nx, 0)
        ensures CellIndex(stride, i', j') != CellIndex(stride, i, j)
      {
        assert InGrid(nx, ny, i', j');
      }
    }
  }

  /**
    With the row-length stride, or a single row of cells, distinct cells
    have distinct flat offsets, each equal to the cell's row-major index:
    every cell is the last to write its rows.
   */
  lemma OwnSlots(nx: int, ny: int, stride: int)
    requires stride == ny || nx <= 1
    ensures forall i, j | InGrid(nx, ny, i, j) ::
              CellIndex(stride, i, j) == CellIndex(ny, i, j) && LastInSlot(nx, ny, stride, i, j)
  {
    forall i, j | InGrid(nx, ny, i, j)
      ensures CellIndex(stride, i, j) == CellIndex(ny, i, j) && LastInSlot(nx, ny, stride, i, j)
    {
      forall i', j' | InGrid(nx, ny, i', j') && WrittenBefore(i, j, i', j')
        ensures CellIndex(stride, i', j') != CellIndex(stride, i, j)
      {
        if stride == ny {
          SameIndexSameCell(ny, i, j, i', j');
        } else {
          assert i == 0 && i' == 0;
        }
      }
    }
  }

  /** Every cell held at its row-major index: vertex row `row` is the generated mesh's. */
  lemma HeldVertexRow(b: Buffers, nx: nat, ny: nat, stride: int, stepSize: real, heights: seq<real>, row: int)
    requires ny > 0 && |heights| >= nx * ny && 0 <= row < 4 * (nx * ny)
    requires forall i, j | InGrid(nx, ny, i, j) ::
               CellIndex(stride, i, j) == CellIndex(ny, i, j) && HoldsCell(b, ny, stride, stepSize, heights, i, j)
    ensures row < |b.vertexRows| && b.vertexRows[row] == Some(GenerateSteps(nx, ny, stepSize, heights).vertices[row])
  {
    var c := row / 4;
    CellOfIndex(nx, ny, c);
    var i, j, k := c / ny, c % ny, row % 4;
    assert HoldsCell(b, ny, stride, stepSize, heights, i, j);
    StepsCorner(nx, ny, stepSize, heights, i, j, k);
    assert row == 4 * c + k;
    assert k == 0 || k == 1 || k == 2 || k == 3;
  }

  /** Every cell held at its row-major index: face row `row` is the generated mesh's. */
  lemma HeldFaceRow(b: Buffers, nx: nat, ny: nat, stride: int, stepSize: real, heights: seq<real>, row: int)
    requires ny > 0 && |heights| >= nx * ny && 0 <= row < 2 * (nx * ny)
    requires forall i, j | InGrid(nx, ny, i, j) ::
               CellIndex(stride, i, j) == CellIndex(ny, i, j) && HoldsCell(b, ny, stride, stepSize, heights, i, j)
    ensures row < |b.faceRows| && b.faceRows[row] == Some(GenerateSteps(nx, ny, stepSize, heights).faces[row])
  {
    var c := row / 2;
    CellOfIndex(nx, ny, c);
    assert HoldsCell(b, ny, stride, stepSize, heights, c / ny, c % ny);
    StepsCellFaces(nx, ny, stepSize, heights, c);
    assert row == 2 * c || row == 2 * c + 1;
  }

  /**
    When every cell is the last in its slot and its slot is its row-major
    index, holding every cell is holding the generated mesh, row for row.
   */
  lemma HeldIsGenerated(b: Buffers, nx: nat, ny: nat, stride: int, stepSize: real, heights: seq<real>)
    requires (stride == ny || nx <= 1) && ny > 0 && |heights| >= nx * ny
    requires HoldsLastWriters(b, nx, ny, stride, stepSize, heights)
    requires 4 * (nx * ny) <= |b.vertexRows| && 2 * (nx * ny) <= |b.faceRows|
    ensures HoldsMesh(b, GenerateSteps(nx, ny, stepSize, heights))
    ensures |b.vertexRows| == 4 * (nx * ny) && |b.faceRows| == 2 * (nx * ny) ==> b == Filled(GenerateSteps(nx, ny, stepSize, heights))
  {
    var m := GenerateSteps(nx, ny, stepSize, heights);
    OwnSlots(nx, ny, stride);
    forall row | 0 <= row < 4 * (nx * ny) ensures b.vertexRows[row] == Some(m.vertices[row]) {
      HeldVertexRow(b, nx, ny, stride, stepSize, heights, row);
    }
    forall row | 0 <= row < 2 * (nx * ny) ensures b.faceRows[row] == Some(m.faces[row]) {
      HeldFaceRow(b, nx, ny, stride, stepSize, heights, row);
    }
    if |b.vertexRows| == 4 * (nx * ny) && |b.faceRows| == 2 * (nx * ny) {
      FilledWhenExact(b, m);
    }
  }

  /**
    Runs the nested loops for an nx-by-ny grid with flat row stride
    `stride`, into buffers of `vertexRows` and `faceRows` rows; cell c in
    loop order takes the draw heights[c].
   */
  method WriteSteps(nx: nat, ny: nat, stride: nat, vertexRows: nat, faceRows: nat, stepSize: real, heights: seq<real>)
    returns (r: Result<Buffers, WriteError>)
    requires |heights| >= nx * ny
    // the loop fails exactly when the last cell, whose offset is the largest, does not fit
    ensures r.Failure? <==> nx > 0 && ny > 0 && !CellFits(stride, nx - 1, ny - 1, vertexRows, faceRows)
    ensures r.Failure? ==> InGrid(nx, ny, r.error.i, r.error.j) && !CellFits(stride, r.error.i, r.error.j, vertexRows, faceRows)
    ensures r.Success? ==> |r.value.vertexRows| == vertexRows && |r.value.faceRows| == faceRows
    // no row beyond the slots the grid can reach is ever written
    ensures r.Success? ==> WrittenBelow(r.value, Reach(nx, ny, stride))
    // for any stride: each cell that no later cell overwrites is in its rows at offset i * stride + j
    ensures r.Success? ==> HoldsLastWriters(r.value, nx, ny, stride, stepSize, heights)
    // with the row-length stride, or a single row of cells, the written rows are those of the generated mesh
    ensures r.Success? && (stride == ny || nx <= 1) ==> 4 * (nx * ny) <= vertexRows && 2 * (nx * ny) <= faceRows
    ensures r.Success? && (stride == ny || nx <= 1) ==> HoldsMesh(r.value, GenerateSteps(nx, ny, stepSize, heights))
    ensures (stride == ny || nx <= 1) && vertexRows == 4 * (nx * ny) && faceRows == 2 * (nx * ny) ==>
              r == Success(Filled(GenerateSteps(nx, ny, stepSize, heights)))
    // a short stride leaves the last allocated vertex row unwritten; a long one overruns
    ensures nx >= 2 && stride < ny && vertexRows == 4 * (nx * ny) && r.Success? ==> r.value.vertexRows[vertexRows - 1] == None
    ensures nx >= 2 && ny >= 1 && stride > ny && vertexRows <= 4 * (nx * ny) ==> r.Failure?
  {
    r := WriteRows(nx, ny, stride, vertexRows, faceRows, stepSize, heights);
    if r.Success? {
      LoopDone(r.value, nx, ny, stride, vertexRows, faceRows, stepSize, heights);
    }
  }

  /** The outer loop, i = 0 .. nx - 1, with what its invariants give at the end. */
  method WriteRows(nx: nat, ny: nat, stride: nat, vertexRows: nat, faceRows: nat, stepSize: real, heights: seq<real>)
    returns (r: Result<Buffers, WriteError>)
    requires |heights| >= nx * ny
    ensures r.Failure? <==> nx > 0 && ny > 0 && !CellFits(stride, nx - 1, ny - 1, vertexRows, faceRows)
    ensures r.Failure? ==> InGrid(nx, ny, r.error.i, r.error.j) && !CellFits(stride, r.error.i, r.error.j, vertexRows, faceRows)
    ensures r.Success? ==> |r.value.vertexRows| == vertexRows && |r.value.faceRows| == faceRows
    ensures r.Success? ==> WrittenBelow(r.value, Reach(nx, ny, stride))
    ensures r.Success? ==> HoldsLastWriters(r.value, nx, ny, stride, stepSize, heights)
  {
    var b := Buffers(seq(vertexRows, _ => None), seq(faceRows, _ => None));
    var i := 0;
    while i < nx
      invariant 0 <= i <= nx
      invariant |b.vertexRows| == vertexRows && |b.faceRows| == faceRows
      invariant ny > 0 && i > 0 ==> CellFits(stride, i - 1, ny - 1, vertexRows, faceRows)
      invariant WrittenBelow(b, Reach(i, ny, stride))
      invariant LastWritersHeld(b, ny, stride, stepSize, heights, i, 0)
    {
      var row := WriteRow(b, nx, ny, stride, i, stepSize, heights);
      if row.Failure? {
        LastCellIsFurthest(nx, ny, stride, row.error.i, row.error.j);
        return Failure(row.error);
      }
      b := row.value;
      i := i + 1;
    }
    LastWritersAtEnd(b, nx, ny, stride, stepSize, heights);
    return Success(b);
  }

  /** What the loop's invariants give once every row of cells is written. */
  lemma LoopDone(b: Buffers, nx: nat, ny: nat, stride: nat, vertexRows: nat, faceRows: nat, stepSize: real, heights: seq<real>)
    requires |heights| >= nx * ny
    requires |b.vertexRows| == vertexRows && |b.faceRows| == faceRows
    requires ny > 0 && nx > 0 ==> CellFits(stride, nx - 1, ny - 1, vertexRows, faceRows)
    requires WrittenBelow(b, Reach(nx, ny, stride))
    requires HoldsLastWriters(b, nx, ny, stride, stepSize, heights)
    ensures (stride == ny || nx <= 1) ==> 4 * (nx * ny) <= vertexRows && 2 * (nx * ny) <= faceRows
    ensures (stride == ny || nx <= 1) ==> HoldsMesh(b, GenerateSteps(nx, ny, stepSize, heights))
    ensures (stride == ny || nx <= 1) && vertexRows == 4 * (nx * ny) && faceRows == 2 * (nx * ny) ==>
              b == Filled(GenerateSteps(nx, ny, stepSize, heights))
    ensures nx >= 2 && stride < ny && vertexRows == 4 * (nx * ny) ==> b.vertexRows[vertexRows - 1] == None
    ensures !(nx >= 2 && ny >= 1 && stride > ny && vertexRows <= 4 * (nx * ny))
  {
    if nx > 0 && ny > 0 {
      LastCellIsFurthest(nx, ny, stride, nx - 1, ny - 1);
    }
    if stride == ny {
      RowStrideReach(nx, ny);
    }
    if (stride == ny || nx <= 1) && ny > 0 {
      assert Reach(nx, ny, stride) == nx * ny;
      HeldIsGenerated(b, nx, ny, stride, stepSize, heights);
    } else if (stride == ny || nx <= 1) && vertexRows == 0 && faceRows == 0 {
      assert b.vertexRows == [] && b.faceRows == [];
    }
    if nx >= 2 && stride < ny {
      ShortStrideReach(nx, ny, stride);
    }
    if nx >= 2 && ny >= 1 && stride > ny {
      LongStrideOverruns(nx, ny, stride);
    }
  }

  /** One pass of the inner loop's body keeps its invariants, one cell further on. */
  lemma WriteCellStep(b: Buffers, ny: int, stride: nat, stepSize: real, heights: seq<real>, i: int, j: int)
    requires 0 <= i && 0 <= j < ny
    requires CellFits(stride, i, j, |b.vertexRows|, |b.faceRows|)
    requires 0 <= CellIndex(ny, i, j) < |heights|
    requires WrittenBelow(b, Reach(i + 1, ny, stride))
    requires LastWritersHeld(b, ny, stride, stepSize, heights, i, j)
    ensures 0 <= CellIndex(stride, i, j)
    ensures var b' := WriteCell(b, CellIndex(stride, i, j), i, j, stepSize, heights[CellIndex(ny, i, j)]);
            && WrittenBelow(b', Reach(i + 1, ny, stride))
            && LastWritersHeld(b', ny, stride, stepSize, heights, i, j + 1)
  {
    WriteCellKeepsLastWriters(b, ny, stride, stepSize, heights, i, j);
    ReachGrows(i, ny, stride, j);
    WriteCellStaysBelow(b, CellIndex(stride, i, j), i, j, stepSize, heights[CellIndex(ny, i, j)], Reach(i + 1, ny, stride));
  }

  /**
    The inner loop: row i of cells, j = 0 .. ny - 1, each cell drawing
    heights[i * ny + j] and writing its rows at offset i * stride + j.
   */
  method WriteRow(b: Buffers, nx: nat, ny: nat, stride: nat, i: nat, stepSize: real, heights: seq<real>)
    returns (r: Result<Buffers, WriteError>)
    requires i < nx && |heights| >= nx * ny
    requires WrittenBelow(b, Reach(i, ny, stride))
    requires LastWritersHeld(b, ny, stride, stepSize, heights, i, 0)
    ensures r.Failure? ==> r.error.i == i && 0 <= r.error.j < ny
                           && !CellFits(stride, i, r.error.j, |b.vertexRows|, |b.faceRows|)
    ensures r.Success? ==>
              && |r.value.vertexRows| == |b.vertexRows| && |r.value.faceRows| == |b.faceRows|
              && (ny > 0 ==> CellFits(stride, i, ny - 1, |b.vertexRows|, |b.faceRows|))
              && WrittenBelow(r.value, Reach(i + 1, ny, stride))
              && LastWritersHeld(r.value, ny, stride, stepSize, heights, i + 1, 0)
  {
    var b' := b;
    var j := 0;
    while j < ny
      invariant 0 <= j <= ny
      invariant |b'.vertexRows| == |b.vertexRows| && |b'.faceRows| == |b.faceRows|
      invariant j > 0 ==> CellFits(stride, i, j - 1, |b.vertexRows|, |b.faceRows|)
      invariant WrittenBelow(b', Reach(i + 1, ny, stride))
      invariant LastWritersHeld(b', ny, stride, stepSize, heights, i, j)
    {
      CellBelowCount(nx, ny, i, j);
      var z := heights[i * ny + j];
      var c := CellIndex(stride, i, j);
      if !CellFits(stride, i, j, |b.vertexRows|, |b.faceRows|) {
        return Failure(CellOutOfRange(i, j));
      }
      WriteCellStep(b', ny, stride, stepSize, heights, i, j);
      b' := WriteCell(b', c, i, j, stepSize, z);
      j := j + 1;
    }
    LastWritersNextRow(b', ny, stride, stepSize, heights, i);
    return Success(b');
  }
}

=== FILE: transform.dfy ===
/**
  `translateMesh`: shift every vertex row by one offset vector. The source
  updates the vertex matrix in place; here the shifted mesh is returned.
 */
module Transform {
  import opened Meshes

  function Translate(m: Mesh, offset: Vec3): (r: Mesh)
    ensures r.faces == m.faces
    ensures |r.vertices| == |m.vertices|
    ensures forall i | 0 <= i < |m.vertices| :: Sub(r.vertices[i], m.vertices[i]) == offset
  {
    Mesh(seq(|m.vertices|, i requires 0 <= i < |m.vertices| => Add(m.vertices[i], offset)), m.faces)
  }

  /** Translating by the zero vector changes nothing. */
  lemma TranslateByOrigin(m: Mesh)
    ensures Translate(m, Origin) == m
  {
    assert Translate(m, Origin).vertices == m.vertices;
  }

  /** Two translations in a row are one translation by the sum of the offsets. */
  lemma TranslateTwice(m: Mesh, first: Vec3, second: Vec3)
    ensures Translate(Translate(m, first), second) == Translate(m, Add(first, second))
  {
    assert Translate(Translate(m, first), second).vertices == Translate(m, Add(first, second)).vertices;
  }

  /** Translating back by the negated offset restores the original mesh. */
  lemma TranslateUndo(m: Mesh, offset: Vec3)
    ensures Translate(Translate(m, offset), Neg(offset)) == m
  {
    TranslateTwice(m, offset, Neg(offset));
    assert Add(offset, Neg(offset)) == Origin;
    TranslateByOrigin(m);
  }

  /**
    Only positions move: the face list, and so the well-formedness and the
    edge structure of the surface, are those of the input.
   */
  lemma TranslateKeepsTopology(m: Mesh, offset: Vec3)
    ensures WellFormed(Translate(m, offset)) <==> WellFormed(m)
    ensures ClosedOriented(Translate(m, offset).faces) <==> ClosedOriented(m.faces)
  {
  }

  /** Face normals are unchanged by a translation. */
  lemma TranslateKeepsNormals(m: Mesh, offset: Vec3, f: int)
    requires WellFormed(m) && 0 <= f < |m.faces|
    ensures WellFormed(Translate(m, offset))
    ensures Normal(Translate(m, offset), f) == Normal(m, f)
  {
    var t := m.faces[f];
    var r := Translate(m, offset);
    assert Sub(r.vertices[t.b], r.vertices[t.a]) == Sub(m.vertices[t.b], m.vertices[t.a]);
    assert Sub(r.vertices[t.c], r.vertices[t.a]) == Sub(m.vertices[t.c], m.vertices[t.a]);
  }
}

=== FILE: wrappers.dfy ===
/** Failure-carrying datatypes shared by the mesh modules. */
module Wrappers {

  /** A value that may be absent: an uninitialised buffer row is `None`. */
  datatype Option<+T> = None | Some(value: T)

  /** The outcome of an operation that can fail with an error of type `E`. */
  datatype Result<+T, +E> = Success(value: T) | Failure(error: E)
}
